=== FILE: README.md ===
# URI-signed DASH streaming: a Dafny model

The system packages uploaded videos as MPEG-DASH with ffmpeg, publishes them
under `videos/<title>/`, and protects the manifests with URI-signing tokens:
JSON Web Tokens, signed with the algorithm `JWT_ALGORITHM` names (HS256 by
default), whose claims follow the CDNI URI Signing format
(`cdniv`, `cdniuc`, `cdniets`, `cdnistt`). The browser client reads the video
name out of a manifest path, asks the server for a token, and appends the
token to the manifest URL under a configurable query parameter.

This project models the three files that make those decisions:

- `utils/jwt-signing.js` (module `JwtSigning`): configuration from the
  environment with its defaults, the claims and request of
  `generateManifestToken`, the name extraction of `generateTokenForPath`, the
  pre-checks of `verifyToken`, and the text normalisation of
  `base64urlToBuffer`.
- `utils/ffmpeg-utils.js` (module `FfmpegUtils`): `hasAudioStream`, the full
  encoder option list of `generateVideoSegments` (GOP settings, the three-rung
  rendition ladder, the optional audio rendition, DASH muxing, the adaptation
  set descriptor), the published paths, and the effects and outcome of a run.
- `public/script.js` (module `ClientScript`): `extractVideoName`,
  `loadConfig`, and the signed manifest URL.

Module `PipelineAgreement` states how the three fit together: the client and
server parsers read the same name, both read the title back out of the paths
the packager publishes, the token issued for a published manifest is scoped to
that title's directory, and the scope's extension list covers every file the
packager writes except the thumbnail.

Supporting modules: `Wrappers` (`Option`, `Result`), `JsStrings`
(`split`, `filter(p => p)`, `indexOf`, decimal printing), and `JsNumbers`
(`parseInt` without a radix, and the `x || fallback` idiom with JavaScript's
falsy strings and numbers).

The token library (`jwt.sign`, `jwt.decode`, `jwt.verify`), the probe, the
encoder, the clock and the environment are parameters: `Signer`, `Decoder`
and `Verifier` are function-typed arguments, `ProbeResult` and `EncoderExit`
are the answers the tools give, `nowMs` is `Date.now()`, and `Env` holds the
environment variables the code reads. Encoder options are modelled as values
of `EncoderOption` and printed by `FfmpegUtils.Render` into the strings the
packager pushes onto the `outputOptions` list it hands to the ffmpeg wrapper
library.

## Model

| member | source | states |
|---|---|---|
| JwtSigning.LoadJwtConfig | utils/jwt-signing.js:12-22 | each string setting is the environment value when that is set and non-empty, else its default; the secret has no default; each duration is the parsed variable when that is a non-zero number, else 3600 or 300; the strings are never empty and the durations never 0 |
| JwtSigning.UnsetDurationsDefault | utils/jwt-signing.js:19-20 | with the duration variables unset or empty, the configuration's lifetime is 3600 and its renewal period 300 |
| JwtSigning.EnvNumberFallback | utils/jwt-signing.js:19-20 | an unset or empty duration variable, one set to "0", and one set to any text starting with neither white space, sign nor digit yield the default; one set to the decimal text of a positive number yields that number |
| JsNumbers.ParseInt | utils/jwt-signing.js:19-20 | `parseInt` finds a number only where, after leading white space, the text starts with a digit, possibly after one sign |
| JsNumbers.ParseIntOfDecimal | utils/jwt-signing.js:19-20 | `parseInt` reads back a printed non-negative integer followed by any text that does not continue the number |
| JsNumbers.ParseIntFindsNothing | utils/jwt-signing.js:19-20 | `parseInt` of an unset variable, of the empty string, and of every text starting with neither white space, sign nor digit is NaN |
| JwtSigning.ManifestClaims | utils/jwt-signing.js:67-87 | `iat` and `nbf` are the current second; the token lives `exp - iat` seconds, the option when truthy else the configured lifetime; when no truthy lifetime option is given, a positive configured lifetime gives `exp > iat`; `cdniv` and `cdnistt` are 1 |
| JwtSigning.ManifestSignRequest | utils/jwt-signing.js:46-100 | issuance fails exactly when the secret is unset or empty, with the missing-secret error; otherwise the library receives that secret, the configured algorithm, `noTimestamp` and header type `JWT` |
| JwtSigning.ManifestClaimsContent | utils/jwt-signing.js:49-87 | every claim and the key id field by field: options win when truthy, else the configuration; `iat` is `floor(nowMs / 1000)`; `sub` is `manifest:<name>`; `cdniuc` uses the given hostname or any authority |
| JwtSigning.SubjectRoundTrip | utils/jwt-signing.js:70 | the subject of an issued token reads back as exactly the video it was issued for |
| JwtSigning.UriConstraint | utils/jwt-signing.js:81 | the constraint starts with the `regex:https?://` scheme pattern, continues with the hostname, and ends with the signed-extension pattern |
| JwtSigning.ConstraintSuffixListsExtensions | utils/jwt-signing.js:81 | the file pattern of the URI constraint admits exactly the alternatives `ts`, `m3u8`, `mpd`, `m4s` |
| JwtSigning.GenerateManifestToken | utils/jwt-signing.js:90-99 | without a secret the signer is never consulted; otherwise the result is the signer's token, or its error passed on |
| JwtSigning.ServerVideoName | utils/jwt-signing.js:155-168 | a name exists exactly when the path has two non-empty segments; it is one of them, the one after the first `videos` when that has a successor, else the second-to-last |
| JwtSigning.PathSignRequest | utils/jwt-signing.js:152-174 | an unparsable path fails with its own error even without a secret; a parsable one asks for exactly the manifest token of the extracted name |
| JwtSigning.GenerateTokenForPath | utils/jwt-signing.js:152-175 | the same two outcomes for the signed token |
| JwtSigning.EffectiveKid | utils/jwt-signing.js:119 | an explicit non-empty key id wins; otherwise the token header's key id is checked |
| JwtSigning.Message | utils/jwt-signing.js:56-175 | the module's own errors always carry text, naming the unparsable path, or the unexpected key id (`undefined` when the header has none) after the fixed prefix and the expected one before the closing parenthesis; a library error keeps the library's message |
| JwtSigning.VerifyRequestFor | utils/jwt-signing.js:110-139 | the checks run in order (undecodable token, missing secret, foreign key id with the id in the error); verification reaches the library exactly when all pass, with the configured algorithm alone, the given or configured issuer, and the configured audience |
| JwtSigning.VerifyToken | utils/jwt-signing.js:110-142 | a failed pre-check is the result; otherwise the library's payload, or its error passed on |
| JwtSigning.RejectionIgnoresVerifier | utils/jwt-signing.js:114-132 | a rejected pre-check gives the same result whatever the library would say, and is never a library error |
| JwtSigning.IssuedTokenPassesPrechecks | utils/jwt-signing.js:119-139 | a token issued under the configured key id passes every pre-check and is verified with the secret and algorithm it was signed with, and the issuer and audience it carries when no option overrode them |
| JwtSigning.ForeignKeyRejected | utils/jwt-signing.js:130-132 | a token whose header names another key is refused with that key id and the expected one |
| JwtSigning.Base64UrlToBase64 | utils/jwt-signing.js:27-30 | the result has no `-` or `_`, maps each input character (`-` to `+`, `_` to `/`, the rest unchanged), and adds 0 to 3 `=` to reach a multiple of four |
| JwtSigning.Base64UrlRoundTrip | utils/jwt-signing.js:28 | without its padding the normalised text maps back to the base64url input |
| FfmpegUtils.FindAudio | utils/ffmpeg-utils.js:15 | the result is the first audio stream of the list (no earlier stream is audio), and there is none exactly when no stream is audio |
| FfmpegUtils.HasAudioStream | utils/ffmpeg-utils.js:11-19 | the probe's error is passed on; otherwise true exactly when some stream's codec type is `audio` |
| FfmpegUtils.LadderRates | utils/ffmpeg-utils.js:49-53 | on the ladder the 1.2 and 1.5 factors are exact, giving maxrates 960/3000/6000k and buffers 1200/3750/7500k, with bitrate <= maxrate <= buffer |
| FfmpegUtils.BitrateTextParses | utils/ffmpeg-utils.js:71-72 | `parseInt` of a rung's bitrate text such as `800k` is its kbit/s |
| FfmpegUtils.RenditionOptions | utils/ffmpeg-utils.js:67-73 | a rung contributes five options, one video map first and no other map |
| FfmpegUtils.RenditionOptionsPrinted | utils/ffmpeg-utils.js:67-73 | for any rung and output index, the five strings are the map, `scale=-2:<height>`, the rung's bitrate text, and maxrate and buffer size derived from it, each addressed to that index |
| FfmpegUtils.LadderOptionsPrinted | utils/ffmpeg-utils.js:49-73 | the printed ladder block is the fifteen strings the program pushes, from `-map 0:v:0`, `-filter:v:0 scale=-2:360`, `-b:v:0 800k`, `-maxrate:v:0 960k`, `-bufsize:v:0 1200k` to `-bufsize:v:2 7500k` |
| FfmpegUtils.VideoMappings | utils/ffmpeg-utils.js:66-74 | the rungs' options appear block by block in ladder order, the k-th numbered from the first index plus k |
| FfmpegUtils.VideoBitratePrintsRungText | utils/ffmpeg-utils.js:70 | the printed bitrate option carries the rung's own bitrate text |
| FfmpegUtils.Render | utils/ffmpeg-utils.js:59-98 | every option string except the adaptation-set descriptor is a flag starting with `-`; the descriptor starts with `id=` |
| FfmpegUtils.RenderAll | utils/ffmpeg-utils.js:56-98 | one `outputOptions` string per option, each the option's printed form, in order |
| FfmpegUtils.EncodeOptions | utils/ffmpeg-utils.js:56-98 | 34 options with audio and 29 without: the GOP block, the 15 ladder options, the audio block only with audio, and the DASH options last |
| FfmpegUtils.GopOptionsPrinted | utils/ffmpeg-utils.js:59-64 | the GOP block prints as the program's six strings |
| FfmpegUtils.AudioOptionsPrinted | utils/ffmpeg-utils.js:77-81 | the audio block prints as the program's five strings |
| FfmpegUtils.DashOptionsPrinted | utils/ffmpeg-utils.js:85-90 | the DASH block prints as the program's muxer strings and ends with the two segment name options |
| FfmpegUtils.InitTemplatePrinted | utils/ffmpeg-utils.js:89 | the init segment template prints as `init-$RepresentationID$.m4s` |
| FfmpegUtils.MediaTemplatePrinted | utils/ffmpeg-utils.js:90 | the media segment template prints as `segment-$RepresentationID$-$Number$.m4s` |
| FfmpegUtils.AdaptationSetsFor | utils/ffmpeg-utils.js:94-98 | one set without audio and two with it, numbered from 0, which together list the output streams 0, 1, 2 (and 3 with audio) each once, in order |
| FfmpegUtils.AdaptationSetsPrinted | utils/ffmpeg-utils.js:94-98 | the descriptor prints as `id=0,streams=0,1,2 id=1,streams=3` with audio and `id=0,streams=0,1,2` without |
| FfmpegUtils.EncodeOptionsStreams | utils/ffmpeg-utils.js:66-82 | the `-map` options create three video streams, then one audio stream exactly when the input video has audio |
| FfmpegUtils.AdaptationSetsFollowStreamOrder | utils/ffmpeg-utils.js:92-98 | the hand-written descriptor agrees with that stream order: set 0 holds exactly the video streams, set 1 (only with audio) exactly the audio stream |
| FfmpegUtils.AudioBlockPlacement | utils/ffmpeg-utils.js:76-90 | the audio map is present exactly when the input video has audio, and then follows every video map and precedes the DASH muxer |
| FfmpegUtils.FixedKeyframeCadence | utils/ffmpeg-utils.js:62-86 | the minimum keyframe interval equals the 48-frame GOP, scene-cut keyframes are off, and segments last 4 seconds |
| FfmpegUtils.SegmentFileNames | utils/ffmpeg-utils.js:89-90 | the templates name `init-<rep>.m4s` and `segment-<rep>-<n>.m4s` |
| FfmpegUtils.PublishedPathsFor | utils/ffmpeg-utils.js:109-115 | with a non-empty CDN URL the manifest and thumbnail paths lie below it, otherwise they are relative `videos/<title>/` paths |
| FfmpegUtils.ManifestOutputPath | utils/ffmpeg-utils.js:102 | the manifest is written directly inside the output directory, as `index.mpd` |
| FfmpegUtils.PublishedManifestIsWritten | utils/ffmpeg-utils.js:102 | the relative published manifest path, below the public root, is the file the encoder writes into `<root>/videos/<title>` |
| FfmpegUtils.GenerateVideoSegments | utils/ffmpeg-utils.js:44-127 | a probe error rejects before the encoder starts; the encoder gets the printed option list for the detected audio; an encoder error rejects with no effect; the run resolves exactly when the encoder ends and the removal of the uploaded input file succeeds, after removing that file and recording the published paths; a failed removal leaves the run unsettled, neither resolved nor rejected, with the removal as its only effect |
| FfmpegUtils.CatalogWrittenOnlyAfterSuccess | utils/ffmpeg-utils.js:106-125 | the catalog is written exactly by runs that resolve, always right after the removal of the uploaded input file; the removal is attempted exactly when the probe and the encoder both succeeded, whether or not it then fails |
| ClientScript.ExtractVideoName | public/script.js:102-111 | the name is never empty; it is the segment after the first `videos` when that has a successor, else the second-to-last segment, and `unknown` for paths with fewer than two segments |
| ClientScript.LoadConfig | public/script.js:16-26 | the configuration is replaced by the response body exactly when the response is ok and its body parses; otherwise it is kept |
| ClientScript.FailedLoadKeepsDefault | public/script.js:2-4 | without a usable response the parameter name stays `URISigningPackage` |
| ClientScript.SignedVideoSrc | public/script.js:65 | the signed URL is the manifest URL, `?`, the parameter name (`undefined` when the configuration lacks it), `=`, and the token, in that order |
| ClientScript.SignedUrlCarriesToken | public/script.js:65 | the signed URL keeps the manifest path, and its query carries the token under the configured parameter name |
| ClientScript.DefaultParameterName | public/script.js:65 | with the default configuration the token travels as `URISigningPackage` |
| PipelineAgreement.ClientServerAgree | public/script.js:102-111 | the client's parser and the server's read the same name from every path with two segments; on shorter paths the server refuses and the client says `unknown` |
| PipelineAgreement.PublishedFileNamesTitle | utils/ffmpeg-utils.js:110-115 | both parsers read the title back out of any published package file path |
| PipelineAgreement.CdnVideosSegmentMisreads | public/script.js:105-107 | when the CDN URL's only `videos` segment is its last one, the client and the server both read `videos` as the name of every published manifest, whatever the title |
| PipelineAgreement.PublishedPathsNameTitle | utils/ffmpeg-utils.js:110-115 | the recorded manifest and thumbnail paths both name the title, for the client and for the server |
| PipelineAgreement.PublishedPathsUnderConstraint | utils/jwt-signing.js:81 | the published paths lie directly below the token's `/videos/<title>/` prefix |
| PipelineAgreement.ConstraintNamesDirectory | utils/jwt-signing.js:81 | the URI constraint carries the `/videos/<title>/` prefix right after the scheme and host |
| PipelineAgreement.ManifestSigned | utils/jwt-signing.js:81 | the manifest's extension is one the constraint admits |
| PipelineAgreement.SegmentFilesSigned | utils/jwt-signing.js:81 | every init and media segment file the encoder names has an extension the constraint admits |
| PipelineAgreement.ThumbnailUnsigned | utils/jwt-signing.js:81 | the thumbnail's extension is not among those the constraint admits |
| PipelineAgreement.TokenForPublishedManifest | utils/jwt-signing.js:152-174 | a token requested for a published manifest path is the token for the title, whose subject reads back as the title and whose constraint names the title's directory |

## Left out

- Cryptography: `jwt.sign`, `jwt.decode` and `jwt.verify` are parameters; signature checking, expiry and `nbf` enforcement happen inside the library and are not modelled.
- `base64urlToBuffer`: only the text normalisation is modelled; `Buffer.from` decoding is left out.
- The ffmpeg wrapper library is not part of this model: how it splits each `outputOptions` string into process arguments (for example whether the two-set descriptor `id=0,streams=0,1,2 id=1,streams=3`, which holds a space, reaches ffmpeg as one argument) is not modelled; the model stops at the strings pushed.
- Strings are sequences of characters; UTF-16 code units, surrogates and normalisation are left out.
- Floating point: `parseInt(bitrate) * 1.2` and `* 1.5` are modelled as `* 6 / 5` and `* 3 / 2` on whole kbit/s, which is exact for the fixed ladder.
- `parseInt` is modelled for the integers this program meets; precision loss beyond 2^53 and exponent forms are left out.
- `generateThumbnail` is left out beyond the file name it writes, `thumbnail.webp`; it runs the encoder and has no decision of its own.
- `updateJsonData` lives in a file that is not part of this model; the catalog update is recorded as an effect with its arguments.
- `server.js`, the DOM, `fetch`, Hls.js, dash.js, the modal and the token request of the client are left out; the token and the fetched configuration are parameters.
- Console logging and the `start` event are left out: they have no effect on results.
- Concurrent runs and catalog races are left out: one run is a function of its inputs.
- FfmpegUtils.HasAudioStream: a probe result without a `streams` list, which makes the program throw inside the callback, is not modelled.
- FfmpegUtils.GenerateVideoSegments: a failing `fs.remove` inside the `end` handler makes the promise never settle; this is modelled as the `Unsettled` outcome, and a throwing `updateJsonData` is not modelled.
- The URI constraint is kept as text: its regular-expression meaning (and the unescaped insertion of the host and video name) is not interpreted; the scope lemmas state the prefix and the extension list instead.
- The thumbnail lies outside the token's scope (`ThumbnailUnsigned`); how the CDN then serves it is outside these files.
- PipelineAgreement.PublishedFileNamesTitle: requires a one-segment title and a CDN URL without a `videos` segment; for other titles or URLs the parsers read a different segment, as `CdnVideosSegmentMisreads` shows for a CDN URL whose only `videos` segment is its last.
- PipelineAgreement.PublishedPathsNameTitle: the same requirement on the title and the CDN URL.
- PipelineAgreement.TokenForPublishedManifest: the same requirement on the title and the CDN URL.
- ClientScript.SignedUrlCarriesToken: requires a manifest URL without a query and a parameter name and token without `=`/`&` delimiters; otherwise the appended query is ambiguous.
- ClientScript.DefaultParameterName: the same requirement on the manifest URL and the token.
- JwtSigning.IssuedTokenPassesPrechecks: requires the token to be issued without an explicit key id and the decoder to report the issued key id.

=== FILE: client_script.dfy ===
/**
 * The browser client of public/script.js, as far as it decides what is
 * requested: the video name read from a manifest path, the configuration
 * holding the name of the query parameter, and the signed manifest URL.
 *
 * The DOM, `fetch`, the player libraries and the token request to the server
 * are not modelled: fetched values and the token are parameters.
 */
module ClientScript {
  import opened Wrappers
  import opened JsStrings
  import opened JsNumbers

  // ---------------------------------------------------------------------
  // extractVideoName
  // ---------------------------------------------------------------------

  const UnknownVideo: string := "unknown"

  /** `extractVideoName(videoPath)`: the segment after the first `videos`
      segment when there is one, otherwise the second-to-last segment, and
      `unknown` when the path has fewer than two segments. */
  function ExtractVideoName(videoPath: string): (name: string)
    ensures name != ""
    ensures |Segments(videoPath)| < 2 ==> name == UnknownVideo
    ensures |Segments(videoPath)| >= 2 ==> name in Segments(videoPath)
    ensures var parts := Segments(videoPath);
      forall i :: 0 <= i < |parts| - 1 && parts[i] == "videos" && "videos" !in parts[..i] ==>
        name == parts[i + 1]
    ensures var parts := Segments(videoPath);
      |parts| >= 2 && "videos" !in parts[..|parts| - 1] ==> name == parts[|parts| - 2]
  {
    var parts := Segments(videoPath);
    var videosIndex := IndexOf(parts, "videos");
    if videosIndex >= 0 && |parts| > videosIndex + 1 then parts[videosIndex + 1]
    else
      // `parts[parts.length - 2] || 'unknown'`: out of range reads undefined
      StringOr(if |parts| >= 2 then Some(parts[|parts| - 2]) else None, UnknownVideo)
  }

  // ---------------------------------------------------------------------
  // Configuration
  // ---------------------------------------------------------------------

  /** The client configuration; the field is undefined when the server's
      JSON lacks it. */
  datatype AppConfig = AppConfig(uriSigningParam: Option<string>)

  /** The configuration before (or without) a successful load. */
  const DefaultConfig: AppConfig := AppConfig(Some("URISigningPackage"))

  /** What `fetch('/api/config')` gives: a network error, or a response with
      its `ok` flag and the parsed body (None when the body is not JSON). */
  datatype ConfigFetch = NetworkError | Response(ok: bool, body: Option<AppConfig>)

  /** `loadConfig()`: the server's configuration replaces the current one
      only when the response is ok and its body parses; every other outcome
      keeps the current configuration. */
  function LoadConfig(current: AppConfig, fetched: ConfigFetch): (config: AppConfig)
    ensures config == current || (fetched.Response? && fetched.ok && fetched.body == Some(config))
    ensures fetched.Response? && fetched.ok && fetched.body.Some? ==> config == fetched.body.value
  {
    match fetched
    case NetworkError => current
    case Response(ok, body) => if ok && body.Some? then body.value else current
  }

  /** Without a usable server response the client signs with the default
      parameter name. */
  lemma FailedLoadKeepsDefault(fetched: ConfigFetch)
    requires !(fetched.Response? && fetched.ok && fetched.body.Some?)
    ensures LoadConfig(DefaultConfig, fetched).uriSigningParam == Some("URISigningPackage")
  {
  }

  // ---------------------------------------------------------------------
  // The signed manifest URL
  // ---------------------------------------------------------------------

  /** A template literal prints an undefined value as `undefined`. */
  function TemplateText(v: Option<string>): string {
    v.GetOr("undefined")
  }

  /** The URL the player loads: `${videoSrc}?${uriSigningParam}=${token}`. */
  function SignedVideoSrc(config: AppConfig, videoSrc: string, token: string): (url: string)
    ensures var name := TemplateText(config.uriSigningParam);
      && |url| == |videoSrc| + |name| + |token| + 2
      && url[..|videoSrc|] == videoSrc && url[|videoSrc|] == '?'
      && url[|videoSrc| + 1..|videoSrc| + 1 + |name|] == name && url[|videoSrc| + 1 + |name|] == '='
      && url[|url| - |token|..] == token
  {
    videoSrc + "?" + TemplateText(config.uriSigningParam) + "=" + token
  }

  /** The part of a URL before its query. */
  function UrlPath(url: string): string {
    SplitAtFirst(url, '?').0
  }

  /** The value of the first `name=value` pair of the query named `name`. */
  function LookupParam(pairs: seq<string>, name: string): (v: Option<string>)
    ensures v.Some? ==> exists i :: 0 <= i < |pairs| && SplitAtFirst(pairs[i], '=').0 == name
    decreases |pairs|
  {
    if |pairs| == 0 then None
    else
      var (key, value) := SplitAtFirst(pairs[0], '=');
      if key == name then Some(value.GetOr(""))
      else
        var rest := LookupParam(pairs[1..], name);
        assert rest.Some? ==> exists i :: 1 <= i < |pairs| && SplitAtFirst(pairs[i], '=').0 == name by {
          if rest.Some? {
            var j :| 0 <= j < |pairs[1..]| && SplitAtFirst(pairs[1..][j], '=').0 == name;
            assert pairs[j + 1] == pairs[1..][j];
          }
        }
        rest
  }

  /** The query parameter `name` of a URL, as a server reads it. */
  function QueryValue(url: string, name: string): Option<string> {
    match SplitAtFirst(url, '?').1
    case None => None
    case Some(query) => LookupParam(Split(query, '&'), name)
  }

  /** The signed URL keeps the manifest path and carries the token under the
      configured parameter name, for a manifest URL without a query and a name and
      token without query delimiters. */
  lemma SignedUrlCarriesToken(config: AppConfig, videoSrc: string, token: string)
    requires '?' !in videoSrc
    requires '=' !in TemplateText(config.uriSigningParam) && '&' !in TemplateText(config.uriSigningParam)
    requires '&' !in token
    ensures UrlPath(SignedVideoSrc(config, videoSrc, token)) == videoSrc
    ensures QueryValue(SignedVideoSrc(config, videoSrc, token), TemplateText(config.uriSigningParam)) == Some(token)
  {
    var param := TemplateText(config.uriSigningParam);
    var query := param + "=" + token;
    assert SignedVideoSrc(config, videoSrc, token) == videoSrc + ['?'] + query;
    SplitAtFirstOf(videoSrc, '?', query);
    assert '&' !in query by {
      forall k | 0 <= k < |query|
        ensures query[k] != '&'
      {
        if k < |param| {
          assert query[k] == param[k];
        } else if k > |param| {
          assert query[k] == token[k - |param| - 1];
        }
      }
    }
    SplitWithoutSeparator(query, '&');
    assert query == param + ['='] + token;
    SplitAtFirstOf(param, '=', token);
  }

  /** With the default configuration the token travels as `URISigningPackage`. */
  lemma DefaultParameterName(videoSrc: string, token: string)
    requires '?' !in videoSrc && '&' !in token
    ensures QueryValue(SignedVideoSrc(DefaultConfig, videoSrc, token), "URISigningPackage") == Some(token)
  {
    SignedUrlCarriesToken(DefaultConfig, videoSrc, token);
  }
}

=== FILE: ffmpeg_utils.dfy ===
/**
 * The DASH packaging step of utils/ffmpeg-utils.js: audio detection over the
 * probe's stream records, the encoder option list built from the fixed
 * three-rung rendition ladder, the published paths, and what a run does when
 * the encoder ends or fails.
 *
 * Options are modelled as values of `EncoderOption` and printed by `Render`
 * into the strings pushed onto the `outputOptions` list handed to the
 * ffmpeg wrapper library; properties of the list are stated over the
 * structured values. How the library splits those strings into process
 * arguments is outside the model.
 *
 * The probe, the encoder process, file removal and the catalog write are outside
 * the model: the probe's answer, the encoder's exit and the removal's outcome
 * are parameters, and the removal and catalog write are recorded as effects.
 */
module FfmpegUtils {
  import opened Wrappers
  import opened JsStrings
  import opened JsNumbers

  // ---------------------------------------------------------------------
  // Stream inspection
  // ---------------------------------------------------------------------

  /** One entry of `metadata.streams`; only `codec_type` is read. */
  datatype StreamRecord = StreamRecord(codecType: Option<string>)

  /** What `ffprobe` reports: the stream records, or the error it raised. */
  datatype ProbeResult = Probed(streams: seq<StreamRecord>) | ProbeFailed(error: string)

  predicate IsAudio(s: StreamRecord) {
    s.codecType == Some("audio")
  }

  /** `streams.find(s => s.codec_type === 'audio')`: the first audio stream. */
  function FindAudio(streams: seq<StreamRecord>): (found: Option<StreamRecord>)
    ensures found.Some? ==> found.value in streams && IsAudio(found.value)
    ensures found.None? <==> forall i :: 0 <= i < |streams| ==> !IsAudio(streams[i])
    ensures found.Some? ==>
      exists i :: 0 <= i < |streams| && streams[i] == found.value && forall j :: 0 <= j < i ==> !IsAudio(streams[j])
    decreases |streams|
  {
    if |streams| == 0 then None
    else if IsAudio(streams[0]) then Some(streams[0])
    else
      var rest := FindAudio(streams[1..]);
      assert forall i :: 1 <= i < |streams| ==> streams[i] == streams[1..][i - 1];
      if rest.Some? then
        var k :| 0 <= k < |streams[1..]| && streams[1..][k] == rest.value
          && forall j :: 0 <= j < k ==> !IsAudio(streams[1..][j]);
        assert streams[k + 1] == rest.value && forall j :: 0 <= j < k + 1 ==> !IsAudio(streams[j]);
        rest
      else rest
  }

  /** `hasAudioStream(filePath)`: whether some stream is audio, or the probe's
      error. */
  function HasAudioStream(probe: ProbeResult): (r: Result<bool, string>)
    ensures probe.ProbeFailed? ==> r == Failure(probe.error)
    ensures probe.Probed? ==>
      (r.Success? && (r.value <==> exists i :: 0 <= i < |probe.streams| && IsAudio(probe.streams[i])))
  {
    match probe
    case ProbeFailed(e) => Failure(e)
    case Probed(streams) => Success(FindAudio(streams).Some?)
  }

  // ---------------------------------------------------------------------
  // Encoder options and their printed form
  // ---------------------------------------------------------------------

  datatype StreamKind = Video | Audio

  /** A segment name template: literal text and the two placeholders. */
  datatype TemplatePart = Text(text: string) | RepresentationId | SegmentNumber

  /** One adaptation set: its id and the output streams it groups. */
  datatype AdaptationSet = AdaptationSet(id: nat, streams: seq<nat>)

  /** One output option, before it is printed. */
  datatype EncoderOption =
    | Codec(kind: StreamKind, name: string)
    | Preset(name: string)
    | Crf(quality: nat)
    | KeyintMin(frames: nat)
    | GopSize(frames: nat)
    | SceneCutThreshold(threshold: nat)
    | MapFirst(kind: StreamKind)
    | ScaleToHeight(output: nat, height: nat)
    | VideoBitrate(output: nat, kbps: nat)
    | MaxRate(output: nat, kbps: nat)
    | BufSize(output: nat, kbps: nat)
    | AudioBitrate(kbps: nat)
    | AudioChannels(count: nat)
    | SampleRate(hz: nat)
    | Format(name: string)
    | SegmentDuration(seconds: nat)
    | UseTemplate(flag: nat)
    | UseTimeline(flag: nat)
    | InitSegmentName(template: seq<TemplatePart>)
    | MediaSegmentName(template: seq<TemplatePart>)
    | AdaptationSetsFlag
    | AdaptationSetsValue(sets: seq<AdaptationSet>)

  function KindLetter(k: StreamKind): string {
    match k
    case Video => "v"
    case Audio => "a"
  }

  /** A template as written on the command line. */
  function RenderTemplate(t: seq<TemplatePart>): string
    decreases |t|
  {
    if |t| == 0 then ""
    else
      (match t[0]
       case Text(s) => s
       case RepresentationId => "$RepresentationID$"
       case SegmentNumber => "$Number$")
      + RenderTemplate(t[1..])
  }

  /** The file name a template gives for one representation and segment number. */
  function FillTemplate(t: seq<TemplatePart>, representation: string, number: string): string
    decreases |t|
  {
    if |t| == 0 then ""
    else
      (match t[0]
       case Text(s) => s
       case RepresentationId => representation
       case SegmentNumber => number)
      + FillTemplate(t[1..], representation, number)
  }

  /** `a,b,c`: stream indices, comma-separated. */
  function RenderIndices(xs: seq<nat>): string
    decreases |xs|
  {
    if |xs| == 0 then ""
    else if |xs| == 1 then NatToString(xs[0])
    else NatToString(xs[0]) + "," + RenderIndices(xs[1..])
  }

  /** `id=0,streams=0,1,2 id=1,streams=3`: the sets, space-separated. */
  function RenderSets(sets: seq<AdaptationSet>): string
    decreases |sets|
  {
    if |sets| == 0 then ""
    else
      var first := "id=" + NatToString(sets[0].id) + ",streams=" + RenderIndices(sets[0].streams);
      if |sets| == 1 then first else first + " " + RenderSets(sets[1..])
  }

  /** The string an option is pushed as. Every option but the adaptation set
      descriptor is a flag, starting with `-`; the descriptor starts with its
      first set's `id=`. */
  function Render(o: EncoderOption): (text: string)
    ensures !o.AdaptationSetsValue? ==> |text| >= 2 && text[0] == '-'
    ensures o.AdaptationSetsValue? && |o.sets| > 0 ==> |text| >= 3 && text[..3] == "id="
  {
    match o
    case Codec(k, name) => "-c:" + KindLetter(k) + " " + name
    case Preset(name) => "-preset " + name
    case Crf(q) => "-crf " + NatToString(q)
    case KeyintMin(f) => "-keyint_min " + NatToString(f)
    case GopSize(f) => "-g " + NatToString(f)
    case SceneCutThreshold(t) => "-sc_threshold " + NatToString(t)
    case MapFirst(k) => "-map 0:" + KindLetter(k) + ":0"
    case ScaleToHeight(i, h) => "-filter:v:" + NatToString(i) + " scale=-2:" + NatToString(h)
    case VideoBitrate(i, k) => "-b:v:" + NatToString(i) + " " + NatToString(k) + "k"
    case MaxRate(i, k) => "-maxrate:v:" + NatToString(i) + " " + NatToString(k) + "k"
    case BufSize(i, k) => "-bufsize:v:" + NatToString(i) + " " + NatToString(k) + "k"
    case AudioBitrate(k) => "-b:a " + NatToString(k) + "k"
    case AudioChannels(n) => "-ac " + NatToString(n)
    case SampleRate(hz) => "-ar " + NatToString(hz)
    case Format(name) => "-f " + name
    case SegmentDuration(s) => "-seg_duration " + NatToString(s)
    case UseTemplate(f) => "-use_template " + NatToString(f)
    case UseTimeline(f) => "-use_timeline " + NatToString(f)
    case InitSegmentName(t) => "-init_seg_name " + RenderTemplate(t)
    case MediaSegmentName(t) => "-media_seg_name " + RenderTemplate(t)
    case AdaptationSetsFlag => "-adaptation_sets"
    case AdaptationSetsValue(sets) => RenderSets(sets)
  }

  /** The `outputOptions` list, one string per option. */
  function RenderAll(opts: seq<EncoderOption>): (args: seq<string>)
    ensures |args| == |opts|
    ensures forall i :: 0 <= i < |opts| ==> args[i] == Render(opts[i])
    decreases |opts|
  {
    if |opts| == 0 then [] else [Render(opts[0])] + RenderAll(opts[1..])
  }

  // ---------------------------------------------------------------------
  // The rendition ladder
  // ---------------------------------------------------------------------

  /** One video rendition: frame size and target bitrate in kbit/s. */
  datatype Rendition = Rendition(width: nat, height: nat, bitrateKbps: nat)

  /** The fixed ladder, lowest first: 360p at 800k, 720p at 2500k, 1080p at 5000k. */
  const Ladder: seq<Rendition> := [
    Rendition(640, 360, 800),
    Rendition(1280, 720, 2500),
    Rendition(1920, 1080, 5000)
  ]

  /** The `bitrate` text of a rung, such as `800k`. */
  function BitrateText(r: Rendition): string {
    NatToString(r.bitrateKbps) + "k"
  }

  /** `parseInt(rendition.bitrate)` recovers the rung's kbit/s. */
  lemma BitrateTextParses(r: Rendition)
    ensures ParseInt(BitrateText(r)) == Num(r.bitrateKbps)
  {
    ParseIntOfDecimal(r.bitrateKbps, "k");
  }

  /** `parseInt(bitrate) * 1.2`, in whole kbit/s. */
  function MaxRateKbps(kbps: nat): nat {
    kbps * 6 / 5
  }

  /** `parseInt(bitrate) * 1.5`, in whole kbit/s. */
  function BufSizeKbps(kbps: nat): nat {
    kbps * 3 / 2
  }

  /** On the fixed ladder both factors are exact (no rounding), giving
      maxrates 960/3000/6000 and buffer sizes 1200/3750/7500, and the
      bitrate never exceeds the maxrate, which never exceeds the buffer. */
  lemma LadderRates()
    ensures forall i :: 0 <= i < |Ladder| ==>
      && MaxRateKbps(Ladder[i].bitrateKbps) * 5 == Ladder[i].bitrateKbps * 6
      && BufSizeKbps(Ladder[i].bitrateKbps) * 2 == Ladder[i].bitrateKbps * 3
      && Ladder[i].bitrateKbps <= MaxRateKbps(Ladder[i].bitrateKbps) <= BufSizeKbps(Ladder[i].bitrateKbps)
    ensures [MaxRateKbps(800), MaxRateKbps(2500), MaxRateKbps(5000)] == [960, 3000, 6000]
    ensures [BufSizeKbps(800), BufSizeKbps(2500), BufSizeKbps(5000)] == [1200, 3750, 7500]
  {
  }

  /** The five options one rung contributes, for output video stream `index`. */
  function RenditionOptions(index: nat, r: Rendition): (opts: seq<EncoderOption>)
    ensures |opts| == 5 && opts[0] == MapFirst(Video)
    ensures forall k :: 1 <= k < 5 ==> !opts[k].MapFirst?
  {
    [ MapFirst(Video),
      ScaleToHeight(index, r.height),
      VideoBitrate(index, r.bitrateKbps),
      MaxRate(index, MaxRateKbps(r.bitrateKbps)),
      BufSize(index, BufSizeKbps(r.bitrateKbps)) ]
  }

  /** `renditions.forEach((rendition, index) => …)`: the rungs' options in
      ladder order, the k-th rung numbered `first + k`. */
  function VideoMappings(rungs: seq<Rendition>, first: nat): (opts: seq<EncoderOption>)
    ensures |opts| == 5 * |rungs|
    ensures forall k :: 0 <= k < |rungs| ==> opts[5 * k .. 5 * k + 5] == RenditionOptions(first + k, rungs[k])
    decreases |rungs|
  {
    if |rungs| == 0 then []
    else
      var head := RenditionOptions(first, rungs[0]);
      var tail := VideoMappings(rungs[1..], first + 1);
      assert forall k :: 1 <= k < |rungs| ==>
        (head + tail)[5 * k .. 5 * k + 5] == tail[5 * (k - 1) .. 5 * (k - 1) + 5];
      head + tail
  }

  /** The printed `bitrate` of each option is the rung's `bitrate` text. */
  lemma VideoBitratePrintsRungText(index: nat, r: Rendition)
    ensures Render(RenditionOptions(index, r)[2]) == "-b:v:" + NatToString(index) + " " + BitrateText(r)
  {
  }

  // ---------------------------------------------------------------------
  // The encoder option list
  // ---------------------------------------------------------------------

  /** Codec, preset, quality and a fixed 48-frame GOP with no scene-cut keyframes. */
  const GopOptions: seq<EncoderOption> :=
    [Codec(Video, "libx264"), Preset("medium"), Crf(24), KeyintMin(48), GopSize(48), SceneCutThreshold(0)]

  /** The single audio rendition: AAC, 128 kbit/s, stereo, 44.1 kHz. */
  const AudioOptions: seq<EncoderOption> :=
    [MapFirst(Audio), Codec(Audio, "aac"), AudioBitrate(128), AudioChannels(2), SampleRate(44100)]

  /** `init-$RepresentationID$.m4s` */
  const InitSegmentTemplate: seq<TemplatePart> := [Text("init-"), RepresentationId, Text(".m4s")]

  /** `segment-$RepresentationID$-$Number$.m4s` */
  const MediaSegmentTemplate: seq<TemplatePart> :=
    [Text("segment-"), RepresentationId, Text("-"), SegmentNumber, Text(".m4s")]

  /** DASH muxing: 4-second segments named by template. */
  const DashOptions: seq<EncoderOption> :=
    [ Format("dash"), SegmentDuration(4), UseTemplate(1), UseTimeline(1),
      InitSegmentName(InitSegmentTemplate), MediaSegmentName(MediaSegmentTemplate) ]

  /** The streams of the sets, set by set. */
  function SetStreams(sets: seq<AdaptationSet>): seq<nat>
    decreases |sets|
  {
    if |sets| == 0 then [] else sets[0].streams + SetStreams(sets[1..])
  }

  /** The adaptation sets as written in the program: the three video streams
      in set 0 and, with audio, stream 3 in set 1. */
  function AdaptationSetsFor(hasAudio: bool): (sets: seq<AdaptationSet>)
    ensures |sets| == if hasAudio then 2 else 1
    ensures forall i :: 0 <= i < |sets| ==> sets[i].id == i
    ensures SetStreams(sets) == [0, 1, 2] + (if hasAudio then [3] else [])
  {
    if hasAudio then [AdaptationSet(0, [0, 1, 2]), AdaptationSet(1, [3])]
    else [AdaptationSet(0, [0, 1, 2])]
  }

  /** The options after the media blocks: the DASH muxer, then the descriptor
      pushed as a separate list element after `-adaptation_sets`. */
  function TrailingOptions(hasAudio: bool): seq<EncoderOption> {
    DashOptions + [AdaptationSetsFlag, AdaptationSetsValue(AdaptationSetsFor(hasAudio))]
  }

  /** The output options of `generateVideoSegments`, in push order. */
  function EncodeOptions(hasAudio: bool): (opts: seq<EncoderOption>)
    ensures |opts| == if hasAudio then 34 else 29
    ensures opts[..6] == GopOptions
    ensures opts[6..21] == VideoMappings(Ladder, 0)
    ensures hasAudio ==> opts[21..26] == AudioOptions
    ensures opts[|opts| - 8..] == TrailingOptions(hasAudio)
  {
    var opts := GopOptions + VideoMappings(Ladder, 0) + (if hasAudio then AudioOptions else [])
      + TrailingOptions(hasAudio);
    assert opts[..6] == GopOptions;
    assert opts[6..21] == VideoMappings(Ladder, 0);
    opts
  }

  /** Two sets print as the first, a space, and the second. */
  lemma RenderTwoSets(first: AdaptationSet, second: AdaptationSet)
    ensures RenderSets([first, second]) == RenderSets([first]) + " " + RenderSets([second])
  {
    assert [first, second][1..] == [second];
  }

  /** The video set prints as in the program. */
  lemma VideoSetPrinted()
    ensures RenderSets([AdaptationSet(0, [0, 1, 2])]) == "id=0,streams=0,1,2"
  {
    assert RenderIndices([0, 1, 2]) == "0,1,2" by {
      assert [0, 1, 2][1..] == [1, 2] && [1, 2][1..] == [2];
      assert NatToString(0) == "0" && NatToString(1) == "1" && NatToString(2) == "2";
    }
    assert NatToString(0) == "0";
  }

  /** The audio set prints as in the program. */
  lemma AudioSetPrinted()
    ensures RenderSets([AdaptationSet(1, [3])]) == "id=1,streams=3"
  {
    assert NatToString(1) == "1" && NatToString(3) == "3";
  }

  /** The printed descriptor is the program's literal text. */
  lemma AdaptationSetsPrinted()
    ensures RenderSets(AdaptationSetsFor(true)) == "id=0,streams=0,1,2 id=1,streams=3"
    ensures RenderSets(AdaptationSetsFor(false)) == "id=0,streams=0,1,2"
  {
    VideoSetPrinted();
    AudioSetPrinted();
    RenderTwoSets(AdaptationSet(0, [0, 1, 2]), AdaptationSet(1, [3]));
  }

  /** A block prints as the given texts when each option prints as its text. */
  lemma RenderAllOf(opts: seq<EncoderOption>, texts: seq<string>)
    requires |opts| == |texts|
    requires forall i :: 0 <= i < |opts| ==> Render(opts[i]) == texts[i]
    ensures RenderAll(opts) == texts
  {
  }

  /** The GOP block as the program pushes it. */
  const GopTexts: seq<string> :=
    ["-c:v libx264", "-preset medium", "-crf 24", "-keyint_min 48", "-g 48", "-sc_threshold 0"]

  lemma GopOptionPrinted(i: nat)
    requires i < |GopOptions|
    ensures Render(GopOptions[i]) == GopTexts[i]
  {
    GopNumbers();
  }

  lemma GopNumbers()
    ensures NatToString(24) == "24" && NatToString(48) == "48" && NatToString(0) == "0"
  {
  }

  /** The printed GOP block is the program's literal strings. */
  lemma GopOptionsPrinted()
    ensures RenderAll(GopOptions) == GopTexts
  {
    forall i | 0 <= i < |GopOptions|
      ensures Render(GopOptions[i]) == GopTexts[i]
    {
      GopOptionPrinted(i);
    }
    RenderAllOf(GopOptions, GopTexts);
  }

  /** The audio block as the program pushes it. */
  const AudioTexts: seq<string> := ["-map 0:a:0", "-c:a aac", "-b:a 128k", "-ac 2", "-ar 44100"]

  lemma AudioOptionPrinted(i: nat)
    requires i < |AudioOptions|
    ensures Render(AudioOptions[i]) == AudioTexts[i]
  {
    AudioNumbers();
  }

  lemma AudioNumbers()
    ensures NatToString(128) == "128" && NatToString(2) == "2" && NatToString(44100) == "44100"
  {
  }

  /** The printed audio block is the program's literal strings. */
  lemma AudioOptionsPrinted()
    ensures RenderAll(AudioOptions) == AudioTexts
  {
    forall i | 0 <= i < |AudioOptions|
      ensures Render(AudioOptions[i]) == AudioTexts[i]
    {
      AudioOptionPrinted(i);
    }
    RenderAllOf(AudioOptions, AudioTexts);
  }

  /** The options of one rung print as the map, the scaling to the rung's
      height, its bitrate text, and maxrate and buffer size derived from it,
      each addressed to output video stream `index`. */
  lemma RenditionOptionsPrinted(index: nat, r: Rendition)
    ensures RenderAll(RenditionOptions(index, r)) == [
      "-map 0:v:0",
      "-filter:v:" + NatToString(index) + " scale=-2:" + NatToString(r.height),
      "-b:v:" + NatToString(index) + " " + BitrateText(r),
      "-maxrate:v:" + NatToString(index) + " " + NatToString(MaxRateKbps(r.bitrateKbps)) + "k",
      "-bufsize:v:" + NatToString(index) + " " + NatToString(BufSizeKbps(r.bitrateKbps)) + "k" ]
  {
    var opts := RenditionOptions(index, r);
    var texts := [
      "-map 0:v:0",
      "-filter:v:" + NatToString(index) + " scale=-2:" + NatToString(r.height),
      "-b:v:" + NatToString(index) + " " + BitrateText(r),
      "-maxrate:v:" + NatToString(index) + " " + NatToString(MaxRateKbps(r.bitrateKbps)) + "k",
      "-bufsize:v:" + NatToString(index) + " " + NatToString(BufSizeKbps(r.bitrateKbps)) + "k" ];
    assert Render(opts[2]) == texts[2];
    RenderAllOf(opts, texts);
  }

  /** The ladder block as the program pushes it, rung by rung. */
  const Rung0Texts: seq<string> :=
    ["-map 0:v:0", "-filter:v:0 scale=-2:360", "-b:v:0 800k", "-maxrate:v:0 960k", "-bufsize:v:0 1200k"]
  const Rung1Texts: seq<string> :=
    ["-map 0:v:0", "-filter:v:1 scale=-2:720", "-b:v:1 2500k", "-maxrate:v:1 3000k", "-bufsize:v:1 3750k"]
  const Rung2Texts: seq<string> :=
    ["-map 0:v:0", "-filter:v:2 scale=-2:1080", "-b:v:2 5000k", "-maxrate:v:2 6000k", "-bufsize:v:2 7500k"]
  const LadderTexts: seq<string> := Rung0Texts + Rung1Texts + Rung2Texts

  lemma Rung0Numbers()
    ensures NatToString(0) == "0" && NatToString(360) == "360" && NatToString(800) == "800"
    ensures MaxRateKbps(800) == 960 && NatToString(960) == "960"
    ensures BufSizeKbps(800) == 1200 && NatToString(1200) == "1200"
  {
  }

  lemma Rung0Printed()
    ensures RenderAll(RenditionOptions(0, Ladder[0])) == Rung0Texts
  {
    assert Ladder[0] == Rendition(640, 360, 800);
    RenditionOptionsPrinted(0, Rendition(640, 360, 800));
    Rung0Numbers();
    Rung0Spelled();
  }

  lemma Rung0Spelled()
    ensures [ "-map 0:v:0",
              "-filter:v:" + "0" + " scale=-2:" + "360",
              "-b:v:" + "0" + " " + ("800" + "k"),
              "-maxrate:v:" + "0" + " " + "960" + "k",
              "-bufsize:v:" + "0" + " " + "1200" + "k" ] == Rung0Texts
  {
    assert "-filter:v:" + "0" + " scale=-2:" + "360" == "-filter:v:0 scale=-2:360";
    assert "-b:v:" + "0" + " " + ("800" + "k") == "-b:v:0 800k";
    assert "-maxrate:v:" + "0" + " " + "960" + "k" == "-maxrate:v:0 960k";
    assert "-bufsize:v:" + "0" + " " + "1200" + "k" == "-bufsize:v:0 1200k";
  }

  lemma Rung1Numbers()
    ensures NatToString(1) == "1" && NatToString(720) == "720" && NatToString(2500) == "2500"
    ensures MaxRateKbps(2500) == 3000 && NatToString(3000) == "3000"
    ensures BufSizeKbps(2500) == 3750 && NatToString(3750) == "3750"
  {
  }

  lemma Rung1Printed()
    ensures RenderAll(RenditionOptions(1, Ladder[1])) == Rung1Texts
  {
    assert Ladder[1] == Rendition(1280, 720, 2500);
    RenditionOptionsPrinted(1, Rendition(1280, 720, 2500));
    Rung1Numbers();
    Rung1Spelled();
  }

  lemma Rung1Spelled()
    ensures [ "-map 0:v:0",
              "-filter:v:" + "1" + " scale=-2:" + "720",
              "-b:v:" + "1" + " " + ("2500" + "k"),
              "-maxrate:v:" + "1" + " " + "3000" + "k",
              "-bufsize:v:" + "1" + " " + "3750" + "k" ] == Rung1Texts
  {
    assert "-filter:v:" + "1" + " scale=-2:" + "720" == "-filter:v:1 scale=-2:720";
    assert "-b:v:" + "1" + " " + ("2500" + "k") == "-b:v:1 2500k";
    assert "-maxrate:v:" + "1" + " " + "3000" + "k" == "-maxrate:v:1 3000k";
    assert "-bufsize:v:" + "1" + " " + "3750" + "k" == "-bufsize:v:1 3750k";
  }

  lemma Rung2Numbers()
    ensures NatToString(2) == "2" && NatToString(1080) == "1080" && NatToString(5000) == "5000"
    ensures MaxRateKbps(5000) == 6000 && NatToString(6000) == "6000"
    ensures BufSizeKbps(5000) == 7500 && NatToString(7500) == "7500"
  {
  }

  lemma Rung2Printed()
    ensures RenderAll(RenditionOptions(2, Ladder[2])) == Rung2Texts
  {
    assert Ladder[2] == Rendition(1920, 1080, 5000);
    RenditionOptionsPrinted(2, Rendition(1920, 1080, 5000));
    Rung2Numbers();
    Rung2Spelled();
  }

  lemma Rung2Spelled()
    ensures [ "-map 0:v:0",
              "-filter:v:" + "2" + " scale=-2:" + "1080",
              "-b:v:" + "2" + " " + ("5000" + "k"),
              "-maxrate:v:" + "2" + " " + "6000" + "k",
              "-bufsize:v:" + "2" + " " + "7500" + "k" ] == Rung2Texts
  {
    assert "-filter:v:" + "2" + " scale=-2:" + "1080" == "-filter:v:2 scale=-2:1080";
    assert "-b:v:" + "2" + " " + ("5000" + "k") == "-b:v:2 5000k";
    assert "-maxrate:v:" + "2" + " " + "6000" + "k" == "-maxrate:v:2 6000k";
    assert "-bufsize:v:" + "2" + " " + "7500" + "k" == "-bufsize:v:2 7500k";
  }

  /** Printing distributes over concatenation. */
  lemma RenderAllConcat(a: seq<EncoderOption>, b: seq<EncoderOption>)
    ensures RenderAll(a + b) == RenderAll(a) + RenderAll(b)
  {
    RenderAllOf(a + b, RenderAll(a) + RenderAll(b));
  }

  /** The ladder block, rung by rung. */
  lemma LadderBlocks()
    ensures VideoMappings(Ladder, 0)
      == RenditionOptions(0, Ladder[0]) + RenditionOptions(1, Ladder[1]) + RenditionOptions(2, Ladder[2])
  {
    var opts := VideoMappings(Ladder, 0);
    assert opts == opts[0..5] + opts[5..10] + opts[10..15];
  }

  /** The printed ladder block is the program's fifteen strings: for each rung,
      the map, `scale=-2:<height>`, the bitrate, and maxrate and buffer at 1.2
      and 1.5 times the bitrate. */
  lemma LadderOptionsPrinted()
    ensures RenderAll(VideoMappings(Ladder, 0)) == LadderTexts
  {
    var r0 := RenditionOptions(0, Ladder[0]);
    var r1 := RenditionOptions(1, Ladder[1]);
    var r2 := RenditionOptions(2, Ladder[2]);
    LadderBlocks();
    RenderAllConcat(r0 + r1, r2);
    RenderAllConcat(r0, r1);
    Rung0Printed();
    Rung1Printed();
    Rung2Printed();
  }

  /** The DASH muxer options as the program pushes them; the two segment
      name templates that follow are stated by `InitTemplatePrinted` and
      `MediaTemplatePrinted`. */
  const DashTexts: seq<string> := ["-f dash", "-seg_duration 4", "-use_template 1", "-use_timeline 1"]

  lemma DashOptionPrinted(i: nat)
    requires i < |DashTexts|
    ensures Render(DashOptions[i]) == DashTexts[i]
  {
    if i == 1 {
      assert NatToString(4) == "4";
    } else if i >= 2 {
      assert NatToString(1) == "1";
    }
  }

  /** The printed DASH muxer options are the program's literal strings, and
      the block ends with the two segment name options. */
  lemma DashOptionsPrinted()
    ensures RenderAll(DashOptions[..4]) == DashTexts
    ensures DashOptions[4..] == [InitSegmentName(InitSegmentTemplate), MediaSegmentName(MediaSegmentTemplate)]
  {
    forall i | 0 <= i < |DashTexts|
      ensures Render(DashOptions[..4][i]) == DashTexts[i]
    {
      DashOptionPrinted(i);
    }
    RenderAllOf(DashOptions[..4], DashTexts);
  }

  lemma InitTemplatePrinted()
    ensures RenderTemplate(InitSegmentTemplate) == "init-$RepresentationID$.m4s"
  {
    TemplateOfParts("init-", ".m4s");
  }

  lemma MediaTemplatePrinted()
    ensures RenderTemplate(MediaSegmentTemplate) == "segment-$RepresentationID$-$Number$.m4s"
  {
    MediaTemplateOfParts("segment-", "-", ".m4s");
  }

  lemma TemplateOfParts(a: string, b: string)
    ensures RenderTemplate([Text(a), RepresentationId, Text(b)]) == a + "$RepresentationID$" + b
  {
    var t := [Text(a), RepresentationId, Text(b)];
    assert RenderTemplate(t[2..]) == b by { assert t[2..][1..] == []; }
    assert RenderTemplate(t[1..]) == "$RepresentationID$" + b by { assert t[1..][1..] == t[2..]; }
  }

  lemma MediaTemplateOfParts(a: string, b: string, c: string)
    ensures RenderTemplate([Text(a), RepresentationId, Text(b), SegmentNumber, Text(c)])
      == a + "$RepresentationID$" + b + "$Number$" + c
  {
    var t := [Text(a), RepresentationId, Text(b), SegmentNumber, Text(c)];
    assert RenderTemplate(t[4..]) == c by { assert t[4..][1..] == []; }
    assert RenderTemplate(t[3..]) == "$Number$" + c by { assert t[3..][1..] == t[4..]; }
    assert RenderTemplate(t[2..]) == b + ("$Number$" + c) by { assert t[2..][1..] == t[3..]; }
    assert RenderTemplate(t[1..]) == "$RepresentationID$" + (b + ("$Number$" + c)) by {
      assert t[1..][1..] == t[2..];
    }
  }

  // ---------------------------------------------------------------------
  // Properties of the option list
  // ---------------------------------------------------------------------

  /** The stream kind of each `-map` option, in order: the n-th entry is
      output stream n. */
  function MappedKinds(opts: seq<EncoderOption>): seq<StreamKind>
    decreases |opts|
  {
    if |opts| == 0 then []
    else (if opts[0].MapFirst? then [opts[0].kind] else []) + MappedKinds(opts[1..])
  }

  lemma {:induction false} MappedKindsConcat(a: seq<EncoderOption>, b: seq<EncoderOption>)
    ensures MappedKinds(a + b) == MappedKinds(a) + MappedKinds(b)
    decreases |a|
  {
    if |a| == 0 {
      assert a + b == b;
    } else {
      assert (a + b)[0] == a[0];
      assert (a + b)[1..] == a[1..] + b;
      MappedKindsConcat(a[1..], b);
    }
  }

  /** The options of one rung map exactly one video stream. */
  lemma RenditionMapsOneVideo(index: nat, r: Rendition)
    ensures MappedKinds(RenditionOptions(index, r)) == [Video]
  {
    var head := RenditionOptions(index, r);
    assert MappedKinds(head[4..]) == [];
    assert MappedKinds(head[3..]) == [];
    assert MappedKinds(head[2..]) == [];
    assert MappedKinds(head[1..]) == [];
  }

  /** A ladder of any length maps one video stream per rung. */
  lemma {:induction false} VideoMappingsMapVideo(rungs: seq<Rendition>, first: nat)
    ensures MappedKinds(VideoMappings(rungs, first)) == seq(|rungs|, _ => Video)
    decreases |rungs|
  {
    if |rungs| > 0 {
      var head := RenditionOptions(first, rungs[0]);
      var tail := VideoMappings(rungs[1..], first + 1);
      calc {
        MappedKinds(VideoMappings(rungs, first));
        { assert VideoMappings(rungs, first) == head + tail; }
        MappedKinds(head + tail);
        { MappedKindsConcat(head, tail); }
        MappedKinds(head) + MappedKinds(tail);
        { RenditionMapsOneVideo(first, rungs[0]); VideoMappingsMapVideo(rungs[1..], first + 1); }
        [Video] + seq(|rungs| - 1, _ => Video);
        seq(|rungs|, _ => Video);
      }
    }
  }

  /** The ladder maps three video streams. */
  lemma LadderMapsThreeVideos()
    ensures MappedKinds(VideoMappings(Ladder, 0)) == [Video, Video, Video]
  {
    VideoMappingsMapVideo(Ladder, 0);
    assert seq(3, _ => Video) == [Video, Video, Video];
  }

  /** The audio block maps the audio stream. */
  lemma AudioOptionsMapAudio()
    ensures MappedKinds(AudioOptions) == [Audio]
  {
    NoMapsMapNothing(AudioOptions[1..]);
  }

  /** The streams of four consecutive blocks, block by block. */
  lemma MappedKindsOfBlocks(a: seq<EncoderOption>, b: seq<EncoderOption>,
                            c: seq<EncoderOption>, d: seq<EncoderOption>)
    ensures MappedKinds(a + b + c + d) == MappedKinds(a) + MappedKinds(b) + MappedKinds(c) + MappedKinds(d)
  {
    MappedKindsConcat(a + b + c, d);
    MappedKindsConcat(a + b, c);
    MappedKindsConcat(a, b);
  }

  /** The option list as its four blocks. */
  lemma EncodeOptionsBlocks(hasAudio: bool)
    ensures EncodeOptions(hasAudio)
      == GopOptions + VideoMappings(Ladder, 0) + (if hasAudio then AudioOptions else []) + TrailingOptions(hasAudio)
  {
  }

  /** The GOP block and the trailing DASH options create no stream. */
  lemma UnmappedBlocks(hasAudio: bool)
    ensures MappedKinds(GopOptions) == []
    ensures MappedKinds(TrailingOptions(hasAudio)) == []
  {
    GopUnmapped();
    TrailingUnmapped(hasAudio);
  }

  lemma GopUnmapped()
    ensures MappedKinds(GopOptions) == []
  {
    NoMapsMapNothing(GopOptions);
  }

  lemma TrailingUnmapped(hasAudio: bool)
    ensures MappedKinds(TrailingOptions(hasAudio)) == []
  {
    NoMapsMapNothing(TrailingOptions(hasAudio));
  }

  /** Four blocks, the outer two without maps, create the streams of the
      inner two. */
  lemma StreamsOfBlocks(gop: seq<EncoderOption>, video: seq<EncoderOption>,
                        audio: seq<EncoderOption>, tail: seq<EncoderOption>)
    requires MappedKinds(gop) == [] && MappedKinds(tail) == []
    ensures MappedKinds(gop + video + audio + tail) == MappedKinds(video) + MappedKinds(audio)
  {
    MappedKindsOfBlocks(gop, video, audio, tail);
  }

  /** The output streams the options create, in stream-index order. */
  lemma EncodeOptionsStreams(hasAudio: bool)
    ensures MappedKinds(EncodeOptions(hasAudio)) == [Video, Video, Video] + (if hasAudio then [Audio] else [])
  {
    var audio := if hasAudio then AudioOptions else [];
    EncodeOptionsBlocks(hasAudio);
    UnmappedBlocks(hasAudio);
    StreamsOfBlocks(GopOptions, VideoMappings(Ladder, 0), audio, TrailingOptions(hasAudio));
    LadderMapsThreeVideos();
    AudioOptionsMapAudio();
    assert MappedKinds(audio) == if hasAudio then [Audio] else [];
  }

  /** Options without a `-map` create no output stream. */
  lemma {:induction false} NoMapsMapNothing(opts: seq<EncoderOption>)
    requires MapFirst(Video) !in opts && MapFirst(Audio) !in opts
    ensures MappedKinds(opts) == []
    decreases |opts|
  {
    if |opts| > 0 {
      var first := opts[0];
      assert first in opts;
      var k := if first.MapFirst? then first.kind else Video;
      assert first.MapFirst? ==> first == MapFirst(k);
      assert k == Video || k == Audio;
      assert forall o :: o in opts[1..] ==> o in opts;
      NoMapsMapNothing(opts[1..]);
    }
  }

  /** The output stream indices of the given kind: positions in `kinds`. */
  function StreamsOfKind(kinds: seq<StreamKind>, k: StreamKind): (idx: seq<nat>)
    ensures forall j :: 0 <= j < |idx| ==> idx[j] < |kinds| && kinds[idx[j]] == k
    ensures forall i :: 0 <= i < |kinds| && kinds[i] == k ==> i in idx
    decreases |kinds|
  {
    if |kinds| == 0 then []
    else
      var before := StreamsOfKind(kinds[..|kinds| - 1], k);
      if kinds[|kinds| - 1] == k then before + [|kinds| - 1] else before
  }

  /** One more output stream adds its index when it has the kind asked for. */
  lemma StreamsOfKindSnoc(kinds: seq<StreamKind>, x: StreamKind, k: StreamKind)
    ensures StreamsOfKind(kinds + [x], k) == StreamsOfKind(kinds, k) + (if x == k then [|kinds|] else [])
  {
    assert (kinds + [x])[..|kinds|] == kinds;
  }

  /** Stream positions of the three video streams. */
  lemma StreamsOfVideoKinds(k: StreamKind)
    ensures StreamsOfKind([Video, Video, Video], k) == if k == Video then [0, 1, 2] else []
  {
    var v0: seq<StreamKind> := [];
    var v1: seq<StreamKind> := [Video];
    var v2: seq<StreamKind> := [Video, Video];
    var hit := k == Video;
    calc {
      StreamsOfKind([Video, Video, Video], k);
      { assert v2 + [Video] == [Video, Video, Video]; }
      StreamsOfKind(v2 + [Video], k);
      { StreamsOfKindSnoc(v2, Video, k); }
      StreamsOfKind(v2, k) + (if hit then [2] else []);
      { assert v1 + [Video] == v2; StreamsOfKindSnoc(v1, Video, k); }
      StreamsOfKind(v1, k) + (if hit then [1] else []) + (if hit then [2] else []);
      { assert v0 + [Video] == v1; StreamsOfKindSnoc(v0, Video, k); }
      StreamsOfKind(v0, k) + (if hit then [0] else []) + (if hit then [1] else []) + (if hit then [2] else []);
      (if hit then [0] else []) + (if hit then [1] else []) + (if hit then [2] else []);
      if hit then [0, 1, 2] else [];
    }
  }

  /** Stream positions of the three video streams and the audio stream. */
  lemma StreamsOfLadderKind(k: StreamKind)
    ensures StreamsOfKind([Video, Video, Video], k) == if k == Video then [0, 1, 2] else []
    ensures StreamsOfKind([Video, Video, Video, Audio], k) == if k == Video then [0, 1, 2] else [3]
  {
    var v3: seq<StreamKind> := [Video, Video, Video];
    assert v3 + [Audio] == [Video, Video, Video, Audio];
    StreamsOfVideoKinds(k);
    StreamsOfKindSnoc(v3, Audio, k);
  }

  /** The descriptor's sets are the stream positions of each kind, for the
      stream order of the ladder with or without the audio stream. */
  lemma AdaptationSetsOfKinds(kinds: seq<StreamKind>, hasAudio: bool)
    requires kinds == [Video, Video, Video] + (if hasAudio then [Audio] else [])
    ensures AdaptationSetsFor(hasAudio) ==
      [AdaptationSet(0, StreamsOfKind(kinds, Video))]
      + (if hasAudio then [AdaptationSet(1, StreamsOfKind(kinds, Audio))] else [])
  {
    if hasAudio {
      assert kinds == [Video, Video, Video, Audio];
      SetsWithAudio();
    } else {
      assert kinds == [Video, Video, Video];
      SetsWithoutAudio();
    }
  }

  lemma SetsWithAudio()
    ensures AdaptationSetsFor(true) == [AdaptationSet(0, StreamsOfKind([Video, Video, Video, Audio], Video)),
                                        AdaptationSet(1, StreamsOfKind([Video, Video, Video, Audio], Audio))]
  {
    StreamsOfLadderKind(Video);
    StreamsOfLadderKind(Audio);
  }

  lemma SetsWithoutAudio()
    ensures AdaptationSetsFor(false) == [AdaptationSet(0, StreamsOfKind([Video, Video, Video], Video))]
  {
    StreamsOfLadderKind(Video);
  }

  /** The hand-written descriptor agrees with the stream order the `-map`
      options create: set 0 holds exactly the video streams and set 1,
      present only with audio, exactly the audio stream. */
  lemma AdaptationSetsFollowStreamOrder(hasAudio: bool)
    ensures var kinds := MappedKinds(EncodeOptions(hasAudio));
      AdaptationSetsFor(hasAudio) ==
        [AdaptationSet(0, StreamsOfKind(kinds, Video))]
        + (if hasAudio then [AdaptationSet(1, StreamsOfKind(kinds, Audio))] else [])
  {
    EncodeOptionsStreams(hasAudio);
    AdaptationSetsOfKinds(MappedKinds(EncodeOptions(hasAudio)), hasAudio);
  }

  /** Only video maps, never the audio map or the DASH muxer, come from a rung. */
  lemma {:induction false} VideoMappingsMapOnlyVideo(rungs: seq<Rendition>, first: nat)
    ensures MapFirst(Audio) !in VideoMappings(rungs, first)
    ensures Format("dash") !in VideoMappings(rungs, first)
    decreases |rungs|
  {
    if |rungs| > 0 {
      var head := RenditionOptions(first, rungs[0]);
      var tail := VideoMappings(rungs[1..], first + 1);
      assert VideoMappings(rungs, first) == head + tail;
      VideoMappingsMapOnlyVideo(rungs[1..], first + 1);
    }
  }

  /** The option list split around the audio block. */
  lemma EncodeOptionsAround(hasAudio: bool)
    ensures EncodeOptions(hasAudio)
      == (GopOptions + VideoMappings(Ladder, 0)) + ((if hasAudio then AudioOptions else []) + TrailingOptions(hasAudio))
  {
  }

  /** Where the audio map, the video maps and the DASH muxer cannot occur. */
  lemma OptionBlocksExclude(hasAudio: bool)
    ensures MapFirst(Audio) !in GopOptions + VideoMappings(Ladder, 0)
    ensures Format("dash") !in GopOptions + VideoMappings(Ladder, 0)
    ensures MapFirst(Video) !in AudioOptions + TrailingOptions(hasAudio)
    ensures MapFirst(Audio) !in TrailingOptions(hasAudio) && Format("dash") !in AudioOptions
  {
    HeadBlocksExclude();
    TailBlocksExclude(hasAudio);
  }

  lemma HeadBlocksExclude()
    ensures MapFirst(Audio) !in GopOptions + VideoMappings(Ladder, 0)
    ensures Format("dash") !in GopOptions + VideoMappings(Ladder, 0)
  {
    VideoMappingsMapOnlyVideo(Ladder, 0);
  }

  lemma TailBlocksExclude(hasAudio: bool)
    ensures MapFirst(Video) !in AudioOptions + TrailingOptions(hasAudio)
    ensures MapFirst(Audio) !in TrailingOptions(hasAudio) && Format("dash") !in AudioOptions
  {
    var t := TrailingOptions(hasAudio);
    assert forall i :: 0 <= i < |t| ==> !t[i].MapFirst?;
  }

  /** The audio block is present exactly when the input video has audio, and then
      sits after every video mapping and before the DASH options. */
  lemma AudioBlockPlacement(hasAudio: bool)
    ensures var opts := EncodeOptions(hasAudio);
      && (MapFirst(Audio) in opts <==> hasAudio)
      && (hasAudio ==>
            && opts[21] == MapFirst(Audio)
            && (forall i :: 0 <= i < |opts| && opts[i] == MapFirst(Video) ==> i < 21)
            && (forall i :: 0 <= i < |opts| && opts[i] == Format("dash") ==> 26 <= i))
  {
    EncodeOptionsAround(hasAudio);
    OptionBlocksExclude(hasAudio);
    var opts := EncodeOptions(hasAudio);
    var video := GopOptions + VideoMappings(Ladder, 0);
    var rest := (if hasAudio then AudioOptions else []) + TrailingOptions(hasAudio);
    if hasAudio {
      assert forall i :: 21 <= i < |opts| ==> opts[i] == rest[i - 21];
      assert forall i :: 0 <= i < 21 ==> opts[i] == video[i];
      assert forall i :: 21 <= i < 26 ==> opts[i] == AudioOptions[i - 21];
    }
  }

  /** GOP and segmentation settings: every rung shares one keyframe cadence
      (minimum interval equal to the GOP size, scene-cut keyframes off), and
      segments last 4 seconds. */
  lemma FixedKeyframeCadence(hasAudio: bool)
    ensures var opts := EncodeOptions(hasAudio);
      && (exists i, j :: 0 <= i < |opts| && 0 <= j < |opts| &&
            opts[i].KeyintMin? && opts[j].GopSize? && opts[i].frames == opts[j].frames == 48)
      && SceneCutThreshold(0) in opts
      && SegmentDuration(4) in opts
  {
    var opts := EncodeOptions(hasAudio);
    assert opts[3] == KeyintMin(48) && opts[4] == GopSize(48) && opts[5] == SceneCutThreshold(0);
    assert opts[|opts| - 7] == SegmentDuration(4);
  }

  // ---------------------------------------------------------------------
  // Segment file names
  // ---------------------------------------------------------------------

  /** The files the two templates name: `init-<rep>.m4s` and
      `segment-<rep>-<n>.m4s`. */
  lemma SegmentFileNames(representation: string, number: string)
    ensures FillTemplate(InitSegmentTemplate, representation, number) == "init-" + representation + ".m4s"
    ensures FillTemplate(MediaSegmentTemplate, representation, number)
      == "segment-" + representation + "-" + number + ".m4s"
  {
    var m := MediaSegmentTemplate;
    assert m[1..][1..][1..][1..][1..] == [];
    assert InitSegmentTemplate[1..][1..][1..] == [];
  }

  // ---------------------------------------------------------------------
  // Published paths
  // ---------------------------------------------------------------------

  const ManifestFileName: string := "index.mpd"
  const ThumbnailFileName: string := "thumbnail.webp"

  /** The manifest and thumbnail paths recorded in the catalog. */
  datatype PublishedPaths = PublishedPaths(videoPath: string, thumbPath: string)

  /** Where the encoder writes the manifest. */
  function ManifestOutputPath(outputDir: string): (path: string)
    ensures |path| == |outputDir| + 1 + |ManifestFileName|
    ensures path[..|outputDir|] == outputDir && path[|outputDir|] == '/'
    ensures path[|outputDir| + 1..] == ManifestFileName
  {
    outputDir + "/" + ManifestFileName
  }

  /** `videos/<title>/<file>`, the path of a package file relative to the
      public root. */
  function PackagePath(title: string, file: string): string {
    "videos/" + title + "/" + file
  }

  /** The paths recorded for `title`: with a non-empty `CDN_URL`, the package
      paths below that URL; otherwise the package paths themselves. */
  function PublishedPathsFor(cdnUrl: Option<string>, title: string): (p: PublishedPaths)
    ensures Unset(cdnUrl) ==>
      p == PublishedPaths(PackagePath(title, ManifestFileName), PackagePath(title, ThumbnailFileName))
    ensures !Unset(cdnUrl) ==>
      p == PublishedPaths(cdnUrl.value + "/" + PackagePath(title, ManifestFileName),
                          cdnUrl.value + "/" + PackagePath(title, ThumbnailFileName))
  {
    var cdn := StringOr(cdnUrl, "");
    var video := PackagePath(title, ManifestFileName);
    var thumb := PackagePath(title, ThumbnailFileName);
    if cdn != "" then PublishedPaths(cdn + "/" + video, cdn + "/" + thumb)
    else PublishedPaths(video, thumb)
  }

  /** The published manifest path names the file the encoder writes: with the
      output directory `<root>/videos/<title>`, the written path is the
      relative published path below `<root>`. */
  lemma PublishedManifestIsWritten(root: string, title: string)
    ensures ManifestOutputPath(root + "/" + "videos/" + title)
      == root + "/" + PublishedPathsFor(None, title).videoPath
  {
    var d := root + "/" + "videos/" + title;
    calc {
      ManifestOutputPath(d);
      d + "/" + ManifestFileName;
      root + "/" + ("videos/" + title + "/" + ManifestFileName);
    }
  }

  // ---------------------------------------------------------------------
  // The outcome of a run
  // ---------------------------------------------------------------------

  /** The side effects of a run, in the order they happen. `RemoveSource` is
      the removal of the uploaded input file. */
  datatype Effect =
    | RemoveSource(path: string)
    | UpdateCatalog(title: string, videoPath: string, thumbPath: string)

  /** How the encoder process finishes: the `end` or the `error` event. */
  datatype EncoderExit = Ended | EncoderFailed(message: string, stderr: Option<string>)

  /** The state the returned promise reaches. `Unsettled`: the `end` handler
      failed at removing the uploaded input file, so neither `resolve` nor `reject` runs. */
  datatype Settlement = Resolved | Rejected(error: string) | Unsettled

  /** The encoder invocation: input file, the `outputOptions` strings, and the
      output manifest. */
  datatype Invocation = Invocation(input: string, options: seq<string>, output: string)

  datatype SegmentRun = SegmentRun(invocation: Option<Invocation>, effects: seq<Effect>, settlement: Settlement)

  /** `generateVideoSegments(filePath, outputDir, title)`. The probe runs first
      and its error rejects before the encoder starts. On `end` the uploaded input
      file is removed, then the catalog is updated with the published paths, then the
      promise resolves; if the removal fails, nothing further happens. On
      `error` the promise rejects and nothing is removed or recorded. */
  function GenerateVideoSegments(filePath: string, outputDir: string, title: string, cdnUrl: Option<string>,
                                 probe: ProbeResult, exit: EncoderExit, removeError: Option<string>)
    : (run: SegmentRun)
    ensures probe.ProbeFailed? ==> run == SegmentRun(None, [], Rejected(probe.error))
    ensures probe.Probed? ==>
      (run.invocation == Some(Invocation(filePath, RenderAll(EncodeOptions(HasAudioStream(probe).value)),
                                         ManifestOutputPath(outputDir))))
    ensures probe.Probed? && exit.EncoderFailed? ==> run.effects == [] && run.settlement == Rejected(exit.message)
    ensures probe.Probed? && exit.Ended? && removeError.Some? ==>
      run.effects == [RemoveSource(filePath)] && run.settlement == Unsettled
    ensures run.settlement.Resolved? <==> probe.Probed? && exit.Ended? && removeError.None?
    ensures run.settlement.Resolved? ==>
      var paths := PublishedPathsFor(cdnUrl, title);
      run.effects == [RemoveSource(filePath), UpdateCatalog(title, paths.videoPath, paths.thumbPath)]
  {
    match HasAudioStream(probe)
    case Failure(e) => SegmentRun(None, [], Rejected(e))
    case Success(hasAudio) =>
      var invocation := Some(Invocation(filePath, RenderAll(EncodeOptions(hasAudio)), ManifestOutputPath(outputDir)));
      match exit
      case EncoderFailed(message, _) => SegmentRun(invocation, [], Rejected(message))
      case Ended =>
        if removeError.Some? then SegmentRun(invocation, [RemoveSource(filePath)], Unsettled)
        else
          var paths := PublishedPathsFor(cdnUrl, title);
          SegmentRun(invocation, [RemoveSource(filePath), UpdateCatalog(title, paths.videoPath, paths.thumbPath)], Resolved)
  }

  /** The catalog is written only by a run that resolves, and then after the
      uploaded input file is removed; that file is touched only after the encoder ended. */
  lemma CatalogWrittenOnlyAfterSuccess(filePath: string, outputDir: string, title: string, cdnUrl: Option<string>,
                                       probe: ProbeResult, exit: EncoderExit, removeError: Option<string>)
    ensures var run := GenerateVideoSegments(filePath, outputDir, title, cdnUrl, probe, exit, removeError);
      && ((exists i :: 0 <= i < |run.effects| && run.effects[i].UpdateCatalog?) <==> run.settlement.Resolved?)
      && (forall i :: 0 <= i < |run.effects| && run.effects[i].UpdateCatalog? ==>
            0 < i && run.effects[i - 1] == RemoveSource(filePath))
      && (RemoveSource(filePath) in run.effects <==> probe.Probed? && exit.Ended?)
  {
    var run := GenerateVideoSegments(filePath, outputDir, title, cdnUrl, probe, exit, removeError);
    if run.settlement.Resolved? {
      assert run.effects[1].UpdateCatalog?;
    }
  }
}

=== FILE: js_numbers.dfy ===
/**
 * JavaScript's global `parseInt` (no radix argument) and the `||` fallback
 * the program uses for every configuration value.
 */
module JsNumbers {
  import opened Wrappers
  import opened JsStrings

  /** A JavaScript number as far as this program produces one: an integer, or NaN. */
  datatype JsNumber = NaN | Num(value: int)

  /** NaN and zero (including -0) are the falsy numbers. */
  predicate Truthy(x: JsNumber) {
    x.Num? && x.value != 0
  }

  /** A string is falsy when it is undefined or empty. */
  predicate Unset(s: Option<string>) {
    s.None? || s.value == ""
  }

  /** `x || fallback` for a number. */
  function NumberOr(x: JsNumber, fallback: int): int {
    if Truthy(x) then x.value else fallback
  }

  /** `s || fallback` for a possibly undefined string. */
  function StringOr(s: Option<string>, fallback: string): string {
    if Unset(s) then fallback else s.value
  }

  // ---------------------------------------------------------------------
  // parseInt
  // ---------------------------------------------------------------------

  /** The characters `parseInt` skips before the number: the ECMAScript
      white space and line terminators. */
  predicate IsJsWhitespace(c: char) {
    || c == '\t' || c == '\n' || c == '\U{B}' || c == '\U{C}' || c == '\r'
    || c == ' ' || c == '\U{A0}' || c == '\U{1680}'
    || ('\U{2000}' <= c <= '\U{200A}')
    || c == '\U{2028}' || c == '\U{2029}' || c == '\U{202F}' || c == '\U{205F}'
    || c == '\U{3000}' || c == '\U{FEFF}'
  }

  /** The input without its leading white space. */
  function TrimStart(s: string): (r: string)
    ensures |r| <= |s| && r == s[|s| - |r|..]
    ensures r == "" || !IsJsWhitespace(r[0])
    decreases |s|
  {
    if |s| > 0 && IsJsWhitespace(s[0]) then TrimStart(s[1..]) else s
  }

  /** A digit of the given radix (10, or 16 after a `0x` prefix). */
  predicate IsRadixDigit(c: char, radix: nat) {
    if radix == 16 then IsDigit(c) || ('a' <= c <= 'f') || ('A' <= c <= 'F')
    else IsDigit(c)
  }

  function DigitValue(c: char): nat {
    if IsDigit(c) then c as int - '0' as int
    else if 'a' <= c <= 'f' then c as int - 'a' as int + 10
    else if 'A' <= c <= 'F' then c as int - 'A' as int + 10
    else 0
  }

  /** The longest prefix made of digits of the radix. */
  function LeadingDigits(s: string, radix: nat): (d: string)
    ensures |d| <= |s| && d == s[..|d|]
    ensures forall i :: 0 <= i < |d| ==> IsRadixDigit(d[i], radix)
    ensures |d| == |s| || !IsRadixDigit(s[|d|], radix)
    decreases |s|
  {
    if |s| == 0 || !IsRadixDigit(s[0], radix) then ""
    else [s[0]] + LeadingDigits(s[1..], radix)
  }

  /** The value of a digit string, most significant digit first. */
  function DigitsValue(d: string, radix: nat): nat
    decreases |d|
  {
    if |d| == 0 then 0
    else DigitsValue(d[..|d| - 1], radix) * radix + DigitValue(d[|d| - 1])
  }

  /** The unsigned part of `parseInt`: a `0x`/`0X` prefix selects radix 16
      (radix 10 otherwise), then the longest run of digits is read; nothing is
      read when that run is empty. */
  function ParseMagnitude(u: string): (m: Option<nat>)
    ensures m.Some? ==> |u| >= 1 && IsDigit(u[0])
  {
    var hex := |u| >= 2 && u[0] == '0' && (u[1] == 'x' || u[1] == 'X');
    var radix := if hex then 16 else 10;
    var digits := LeadingDigits(if hex then u[2..] else u, radix);
    if |digits| == 0 then None else Some(DigitsValue(digits, radix))
  }

  /** `parseInt` after the white space: an optional sign, then the magnitude;
      NaN when there is no digit to read. */
  function ParseSigned(s: string): (r: JsNumber)
    ensures r.Num? ==> StartsNumber(s)
  {
    var negative := |s| > 0 && s[0] == '-';
    var unsigned := if |s| > 0 && (s[0] == '-' || s[0] == '+') then s[1..] else s;
    match ParseMagnitude(unsigned)
    case None => NaN
    case Some(m) => Num(if negative then -(m as int) else m)
  }

  /** Text that begins with a digit, possibly after one sign character. */
  predicate StartsNumber(s: string) {
    |s| >= 1 && (IsDigit(s[0]) || ((s[0] == '-' || s[0] == '+') && |s| >= 2 && IsDigit(s[1])))
  }

  /** `parseInt(input)` with no radix argument: a number is found only where,
      after the leading white space, a digit begins the text, possibly after
      one sign. */
  function ParseInt(input: string): (r: JsNumber)
    ensures r.Num? ==> StartsNumber(TrimStart(input))
  {
    ParseSigned(TrimStart(input))
  }

  /** `parseInt(v)` for a value that may be undefined; `parseInt(undefined)`
      parses the text "undefined". */
  function ParseIntOf(v: Option<string>): JsNumber {
    ParseInt(v.GetOr("undefined"))
  }

  // ---------------------------------------------------------------------
  // parseInt reads back what `${n}` prints
  // ---------------------------------------------------------------------

  /** Decimal printing and digit evaluation are inverse. */
  lemma {:induction false} DecimalRoundTrip(n: nat)
    ensures DigitsValue(NatToString(n), 10) == n
    decreases n
  {
    var s := NatToString(n);
    if n >= 10 {
      DecimalRoundTrip(n / 10);
      assert s[..|s| - 1] == NatToString(n / 10);
    }
  }

  /** A digit run followed by a non-digit is exactly the leading digits. */
  lemma {:induction false} LeadingDigitsStop(d: string, rest: string, radix: nat)
    requires forall i :: 0 <= i < |d| ==> IsRadixDigit(d[i], radix)
    requires rest == "" || !IsRadixDigit(rest[0], radix)
    ensures LeadingDigits(d + rest, radix) == d
    decreases |d|
  {
    if |d| == 0 {
      assert d + rest == rest;
    } else {
      assert (d + rest)[0] == d[0];
      assert (d + rest)[1..] == d[1..] + rest;
      LeadingDigitsStop(d[1..], rest, radix);
    }
  }

  /** What may follow a digit string without continuing the number. */
  predicate EndsNumber(d: string, rest: string) {
    && (rest == "" || !IsDigit(rest[0]))
    && (d == "0" ==> rest == "" || (rest[0] != 'x' && rest[0] != 'X'))
  }

  /** The magnitude read from a decimal digit string followed by text that
      does not continue it is the value of those digits. */
  lemma ParseMagnitudeOfDigits(d: string, rest: string)
    requires |d| >= 1 && forall i :: 0 <= i < |d| ==> IsDigit(d[i])
    requires d[0] == '0' ==> d == "0"
    requires EndsNumber(d, rest)
    ensures ParseMagnitude(d + rest) == Some(DigitsValue(d, 10))
  {
    var s := d + rest;
    LeadingDigitsStop(d, rest, 10);
    assert s[0] == d[0];
    if |s| >= 2 && s[0] == '0' {
      assert d == "0" && s[1] == rest[0];
    }
  }

  /** White-space skipping stops at the first digit or sign. */
  lemma TrimStartStops(s: string)
    requires |s| >= 1 && (IsDigit(s[0]) || s[0] == '-')
    ensures TrimStart(s) == s
  {
  }

  /** Without a sign, `parseInt` reads the magnitude as it is. */
  lemma ParseIntUnsigned(s: string, m: nat)
    requires |s| >= 1 && IsDigit(s[0])
    requires ParseMagnitude(s) == Some(m)
    ensures ParseInt(s) == Num(m)
  {
    TrimStartStops(s);
    assert ParseSigned(s) == Num(m);
  }

  /** `parseInt` of a decimal digit string followed by text that does not
      continue the number is the value of the digits. */
  lemma ParseIntOfDigits(d: string, rest: string)
    requires |d| >= 1 && forall i :: 0 <= i < |d| ==> IsDigit(d[i])
    requires d[0] == '0' ==> d == "0"
    requires EndsNumber(d, rest)
    ensures ParseInt(d + rest) == Num(DigitsValue(d, 10))
  {
    var s := d + rest;
    ParseMagnitudeOfDigits(d, rest);
    assert s[0] == d[0];
    ParseIntUnsigned(s, DigitsValue(d, 10));
  }

  /** `parseInt` reads back a printed non-negative integer from the start of
      any text that does not continue the number. */
  lemma ParseIntOfDecimal(n: nat, rest: string)
    requires EndsNumber(NatToString(n), rest)
    ensures ParseInt(NatToString(n) + rest) == Num(n)
  {
    DecimalRoundTrip(n);
    ParseIntOfDigits(NatToString(n), rest);
  }

  /** `parseInt` finds no number in text that starts with something other
      than white space, a sign or a digit. */
  lemma ParseIntOfNonNumber(s: string)
    requires |s| >= 1 && !IsJsWhitespace(s[0]) && !IsDigit(s[0]) && s[0] != '-' && s[0] != '+'
    ensures ParseInt(s) == NaN
  {
    assert TrimStart(s) == s;
    assert LeadingDigits(s, 10) == "";
  }

  /** `parseInt` finds no number in an unset variable, in an empty one, or in
      any text that starts with something other than white space, a sign or
      a digit. */
  lemma ParseIntFindsNothing(s: string)
    ensures ParseIntOf(None) == NaN
    ensures ParseInt("") == NaN
    ensures |s| >= 1 && !IsJsWhitespace(s[0]) && !IsDigit(s[0]) && s[0] != '-' && s[0] != '+'
      ==> ParseInt(s) == NaN
  {
    assert ParseIntOf(None) == NaN by {
      ParseIntOfNonNumber("undefined");
    }
    if |s| >= 1 && !IsJsWhitespace(s[0]) && !IsDigit(s[0]) && s[0] != '-' && s[0] != '+' {
      ParseIntOfNonNumber(s);
    }
  }
}

=== FILE: js_strings.dfy ===
/**
 * The JavaScript string operations the program relies on, over `seq<char>`:
 * `split` on a one-character separator, `filter(p => p)` on the pieces,
 * `indexOf` on an array of strings, `replace(/c/g, d)`, `repeat`, and the
 * decimal printing of a non-negative integer in a template literal.
 */
module JsStrings {
  import opened Wrappers

  // ---------------------------------------------------------------------
  // split
  // ---------------------------------------------------------------------

  /** `s.split(sep)`: the (possibly empty) pieces between occurrences of `sep`;
      there is always at least one piece and no piece contains `sep`. */
  function Split(s: string, sep: char): (parts: seq<string>)
    ensures |parts| >= 1
    decreases |s|
  {
    if |s| == 0 then [""]
    else
      var rest := Split(s[1..], sep);
      if s[0] == sep then [""] + rest
      else [[s[0]] + rest[0]] + rest[1..]
  }

  /** `parts.join(sep)`: the inverse of `Split`. */
  function Join(parts: seq<string>, sep: char): string
    requires |parts| >= 1
    decreases |parts|
  {
    if |parts| == 1 then parts[0]
    else parts[0] + [sep] + Join(parts[1..], sep)
  }

  /** A leading separator ends an empty first piece. */
  lemma SplitConsSeparator(t: string, sep: char)
    ensures Split([sep] + t, sep) == [""] + Split(t, sep)
  {
    assert ([sep] + t)[1..] == t;
  }

  /** Any other leading character joins the first piece. */
  lemma SplitConsOther(c: char, t: string, sep: char)
    requires c != sep
    ensures Split([c] + t, sep) == [[c] + Split(t, sep)[0]] + Split(t, sep)[1..]
  {
    assert ([c] + t)[1..] == t;
  }

  /** The step of `SplitAround` for a leading separator. */
  lemma SplitAroundStepSeparator(a: string, sep: char, b: string)
    requires Split(a + [sep] + b, sep) == Split(a, sep) + Split(b, sep)
    ensures Split([sep] + a + [sep] + b, sep) == Split([sep] + a, sep) + Split(b, sep)
  {
    var tail := a + [sep] + b;
    calc {
      Split([sep] + a + [sep] + b, sep);
      { assert [sep] + a + [sep] + b == [sep] + tail; }
      Split([sep] + tail, sep);
      { SplitConsSeparator(tail, sep); }
      [""] + (Split(a, sep) + Split(b, sep));
      ([""] + Split(a, sep)) + Split(b, sep);
      { SplitConsSeparator(a, sep); }
      Split([sep] + a, sep) + Split(b, sep);
    }
  }

  /** Extending the first piece commutes with appending more pieces. */
  lemma ExtendFirstPiece(c: char, left: seq<string>, right: seq<string>)
    requires |left| >= 1
    ensures [[c] + (left + right)[0]] + (left + right)[1..] == ([[c] + left[0]] + left[1..]) + right
  {
    assert (left + right)[0] == left[0];
    assert (left + right)[1..] == left[1..] + right;
  }

  /** The step of `SplitAround` for any other leading character. */
  lemma SplitAroundStepOther(c: char, a: string, sep: char, b: string)
    requires c != sep
    requires Split(a + [sep] + b, sep) == Split(a, sep) + Split(b, sep)
    ensures Split([c] + a + [sep] + b, sep) == Split([c] + a, sep) + Split(b, sep)
  {
    var tail := a + [sep] + b;
    assert [c] + a + [sep] + b == [c] + tail;
    SplitConsOther(c, tail, sep);
    SplitConsOther(c, a, sep);
    ExtendFirstPiece(c, Split(a, sep), Split(b, sep));
  }

  /** Splitting at one occurrence of the separator splits each side on its own. */
  lemma {:induction false} SplitAround(a: string, sep: char, b: string)
    ensures Split(a + [sep] + b, sep) == Split(a, sep) + Split(b, sep)
    decreases |a|
  {
    if |a| == 0 {
      assert a + [sep] + b == [sep] + b;
      SplitConsSeparator(b, sep);
    } else {
      SplitAround(a[1..], sep, b);
      assert a == [a[0]] + a[1..];
      if a[0] == sep {
        SplitAroundStepSeparator(a[1..], sep, b);
      } else {
        SplitAroundStepOther(a[0], a[1..], sep, b);
      }
    }
  }

  /** No piece of a split contains the separator. */
  lemma {:induction false} SplitPiecesExcludeSeparator(s: string, sep: char)
    ensures forall i :: 0 <= i < |Split(s, sep)| ==> sep !in Split(s, sep)[i]
    decreases |s|
  {
    if |s| > 0 {
      SplitPiecesExcludeSeparator(s[1..], sep);
      var rest := Split(s[1..], sep);
      if s[0] != sep {
        assert sep !in [s[0]] + rest[0];
        assert Split(s, sep)[1..] == rest[1..];
      }
    }
  }

  /** A string without the separator splits into itself. */
  lemma {:induction false} SplitWithoutSeparator(s: string, sep: char)
    requires sep !in s
    ensures Split(s, sep) == [s]
    decreases |s|
  {
    if |s| > 0 {
      assert s[0] in s;
      assert forall c :: c in s[1..] ==> c in s;
      SplitWithoutSeparator(s[1..], sep);
      assert [s[0]] + s[1..] == s;
    }
  }

  /** Joining the pieces of a split gives back the original string. */
  lemma {:induction false} JoinSplit(s: string, sep: char)
    ensures Join(Split(s, sep), sep) == s
    decreases |s|
  {
    if |s| > 0 {
      JoinSplit(s[1..], sep);
      var rest := Split(s[1..], sep);
      var parts := Split(s, sep);
      if s[0] == sep {
        assert parts[1..] == rest;
        assert Join(parts, sep) == "" + [sep] + Join(rest, sep);
      } else if |rest| == 1 {
        assert parts == [[s[0]] + rest[0]];
      } else {
        assert parts[1..] == rest[1..];
        assert Join(parts, sep) == [s[0]] + rest[0] + [sep] + Join(rest[1..], sep);
        assert Join(rest, sep) == rest[0] + [sep] + Join(rest[1..], sep);
      }
      assert s == [s[0]] + s[1..];
    }
  }

  /** Splitting a join of separator-free pieces gives back the pieces. */
  lemma {:induction false} SplitJoin(parts: seq<string>, sep: char)
    requires |parts| >= 1
    requires forall i :: 0 <= i < |parts| ==> sep !in parts[i]
    ensures Split(Join(parts, sep), sep) == parts
    decreases |parts|
  {
    SplitWithoutSeparator(parts[0], sep);
    if |parts| > 1 {
      SplitJoin(parts[1..], sep);
      SplitAround(parts[0], sep, Join(parts[1..], sep));
      assert parts == [parts[0]] + parts[1..];
    }
  }

  // ---------------------------------------------------------------------
  // filter(p => p): the empty string is the only falsy string
  // ---------------------------------------------------------------------

  /** `parts.filter(p => p)`: the non-empty pieces, in their original order. */
  function NonEmpty(parts: seq<string>): (r: seq<string>)
    ensures |r| <= |parts|
    ensures forall i :: 0 <= i < |r| ==> r[i] != ""
    ensures forall p :: p in r <==> p in parts && p != ""
    decreases |parts|
  {
    if |parts| == 0 then []
    else
      var tail := NonEmpty(parts[1..]);
      assert forall p :: p in parts <==> p == parts[0] || p in parts[1..];
      if parts[0] == "" then tail else [parts[0]] + tail
  }

  /** Filtering distributes over concatenation. */
  lemma {:induction false} NonEmptyConcat(a: seq<string>, b: seq<string>)
    ensures NonEmpty(a + b) == NonEmpty(a) + NonEmpty(b)
    decreases |a|
  {
    if |a| == 0 {
      assert a + b == b;
    } else {
      assert (a + b)[0] == a[0];
      assert (a + b)[1..] == a[1..] + b;
      NonEmptyConcat(a[1..], b);
    }
  }

  /** The non-empty `/`-separated segments of a path, as
      `path.split('/').filter(p => p)` computes them. */
  function Segments(path: string): seq<string> {
    NonEmpty(Split(path, '/'))
  }

  /** Segments of `a + "/" + b` are those of `a` followed by those of `b`. */
  lemma SegmentsAround(a: string, b: string)
    ensures Segments(a + "/" + b) == Segments(a) + Segments(b)
  {
    SplitAround(a, '/', b);
    NonEmptyConcat(Split(a, '/'), Split(b, '/'));
  }

  /** A non-empty string without `/` is a single segment. */
  lemma SegmentsOfName(name: string)
    requires name != "" && '/' !in name
    ensures Segments(name) == [name]
  {
    SplitWithoutSeparator(name, '/');
    assert NonEmpty([name]) == [name] + NonEmpty([]);
  }

  // ---------------------------------------------------------------------
  // indexOf
  // ---------------------------------------------------------------------

  /** `xs.indexOf(x)` with strict equality: the first position of `x`, or -1. */
  function IndexOf(xs: seq<string>, x: string): (i: int)
    ensures -1 <= i < |xs|
    ensures i == -1 <==> x !in xs
    ensures 0 <= i ==> xs[i] == x && x !in xs[..i]
    decreases |xs|
  {
    if |xs| == 0 then -1
    else if xs[0] == x then 0
    else
      var j := IndexOf(xs[1..], x);
      assert forall y :: y in xs <==> y == xs[0] || y in xs[1..];
      if j == -1 then -1
      else
        assert xs[..j + 1] == [xs[0]] + xs[1..][..j];
        j + 1
  }

  // ---------------------------------------------------------------------
  // character replacement, repetition, searching for a character
  // ---------------------------------------------------------------------

  /** `s.replace(/from/g, to)` for a single character. */
  function ReplaceAll(s: string, from: char, to: char): (r: string)
    ensures |r| == |s|
    ensures forall i :: 0 <= i < |s| ==> r[i] == (if s[i] == from then to else s[i])
    decreases |s|
  {
    if |s| == 0 then ""
    else [if s[0] == from then to else s[0]] + ReplaceAll(s[1..], from, to)
  }

  /** `c.repeat(n)`. */
  function Repeat(c: char, n: nat): (r: string)
    ensures |r| == n
    ensures forall i :: 0 <= i < n ==> r[i] == c
  {
    seq(n, _ => c)
  }

  /** The text before the first `c`, and the text after it when there is one. */
  function SplitAtFirst(s: string, c: char): (r: (string, Option<string>))
    ensures r.1.None? <==> c !in s
    ensures r.1.None? ==> r.0 == s
    ensures r.1.Some? ==> s == r.0 + [c] + r.1.value && c !in r.0
    decreases |s|
  {
    if |s| == 0 then ("", None)
    else if s[0] == c then ("", Some(s[1..]))
    else
      var (before, after) := SplitAtFirst(s[1..], c);
      assert forall x :: x in s <==> x == s[0] || x in s[1..];
      ([s[0]] + before, after)
  }

  /** The first `c` after a prefix without `c` is the one that follows it. */
  lemma SplitAtFirstOf(a: string, c: char, b: string)
    requires c !in a
    ensures SplitAtFirst(a + [c] + b, c) == (a, Some(b))
  {
    var s := a + [c] + b;
    var (before, after) := SplitAtFirst(s, c);
    assert s[|a|] == c && s[|before|] == c;
    assert forall k :: 0 <= k < |a| ==> s[k] == a[k] && a[k] in a;
    assert forall k :: 0 <= k < |before| ==> s[k] == before[k] && before[k] in before;
    assert |before| == |a|;
    assert before == s[..|before|] == a;
    assert after.value == s[|before| + 1..] == b;
  }

  // ---------------------------------------------------------------------
  // decimal printing of a non-negative integer, `${n}`
  // ---------------------------------------------------------------------

  predicate IsDigit(c: char) {
    '0' <= c <= '9'
  }

  function DigitChar(d: nat): (c: char)
    requires d < 10
    ensures IsDigit(c)
  {
    (48 + d) as char
  }

  /** `${n}` for a non-negative integer: its decimal digits, no leading zero. */
  function NatToString(n: nat): (s: string)
    ensures |s| >= 1
    ensures forall i :: 0 <= i < |s| ==> IsDigit(s[i])
    ensures s[0] == '0' ==> n == 0
    decreases n
  {
    if n < 10 then [DigitChar(n)]
    else NatToString(n / 10) + [DigitChar(n % 10)]
  }
}

=== FILE: jwt_signing.dfy ===
/**
 * Token issuance and verification pre-checks for CDNI URI Signing (the claim
 * set Apache Traffic Server's URI Signing plugin accepts), as done by
 * utils/jwt-signing.js.
 *
 * The environment is an explicit `Env` record and the clock an explicit
 * `nowMs` (milliseconds since the epoch). The JSON Web Token library is not
 * modelled: signing, decoding and verifying are function-typed parameters,
 * and the pure part of each operation is the exact request it hands to the
 * library.
 */
module JwtSigning {
  import opened Wrappers
  import opened JsStrings
  import opened JsNumbers

  // ---------------------------------------------------------------------
  // Configuration
  // ---------------------------------------------------------------------

  /** The environment variables this module reads; `None` is an unset variable. */
  datatype Env = Env(
    issuer: Option<string>,            // JWT_ISSUER
    audience: Option<string>,          // JWT_AUDIENCE
    primaryKid: Option<string>,        // JWT_PRIMARY_KID
    primarySecret: Option<string>,     // JWT_PRIMARY_SECRET
    algorithm: Option<string>,         // JWT_ALGORITHM
    expiresIn: Option<string>,         // JWT_EXPIRES_IN
    renewalDuration: Option<string>)   // JWT_RENEWAL_DURATION

  /** The configuration record `loadJWTConfig` builds. */
  datatype JwtConfig = JwtConfig(
    issuer: string,
    audience: string,
    primaryKid: string,
    primarySecret: Option<string>,
    algorithm: string,
    expiresIn: int,
    renewalDuration: int)

  const DefaultIssuer: string := "CDN URI Authority"
  const DefaultAudience: string := "mycdn"
  const DefaultPrimaryKid: string := "primary-key-2024"
  const DefaultAlgorithm: string := "HS256"
  const DefaultExpiresIn: int := 3600
  const DefaultRenewalDuration: int := 300

  /** `parseInt(process.env.X) || fallback`. */
  function EnvNumber(v: Option<string>, fallback: int): int {
    NumberOr(ParseIntOf(v), fallback)
  }

  /** `loadJWTConfig()`: every variable falls back to its default when it is
      unset or empty; a numeric variable also falls back when it parses to 0
      or to NaN. The secret is taken as it is, with no default. */
  function LoadJwtConfig(env: Env): (c: JwtConfig)
    ensures c.primarySecret == env.primarySecret
    ensures c.issuer == (if Unset(env.issuer) then DefaultIssuer else env.issuer.value)
    ensures c.audience == (if Unset(env.audience) then DefaultAudience else env.audience.value)
    ensures c.primaryKid == (if Unset(env.primaryKid) then DefaultPrimaryKid else env.primaryKid.value)
    ensures c.algorithm == (if Unset(env.algorithm) then DefaultAlgorithm else env.algorithm.value)
    ensures c.issuer != "" && c.audience != "" && c.primaryKid != "" && c.algorithm != ""
    ensures c.expiresIn ==
      (if Truthy(ParseIntOf(env.expiresIn)) then ParseIntOf(env.expiresIn).value else DefaultExpiresIn)
    ensures c.renewalDuration ==
      (if Truthy(ParseIntOf(env.renewalDuration)) then ParseIntOf(env.renewalDuration).value else DefaultRenewalDuration)
    ensures c.expiresIn != 0 && c.renewalDuration != 0
  {
    JwtConfig(
      StringOr(env.issuer, DefaultIssuer),
      StringOr(env.audience, DefaultAudience),
      StringOr(env.primaryKid, DefaultPrimaryKid),
      env.primarySecret,
      StringOr(env.algorithm, DefaultAlgorithm),
      EnvNumber(env.expiresIn, DefaultExpiresIn),
      EnvNumber(env.renewalDuration, DefaultRenewalDuration))
  }

  /** A numeric variable that is unset, empty, set to "0" or set to text that
      is not a number yields the default; one set to the decimal text of a
      positive number yields that number. */
  lemma EnvNumberFallback(n: nat, s: string, fallback: int)
    ensures EnvNumber(None, fallback) == fallback
    ensures EnvNumber(Some(""), fallback) == fallback
    ensures EnvNumber(Some("0"), fallback) == fallback
    ensures n > 0 ==> EnvNumber(Some(NatToString(n)), fallback) == n
    ensures |s| >= 1 && !IsJsWhitespace(s[0]) && !IsDigit(s[0]) && s[0] != '-' && s[0] != '+'
      ==> EnvNumber(Some(s), fallback) == fallback
  {
    ParseIntFindsNothing(s);
    ParseIntOfDecimal(0, "");
    assert NatToString(0) + "" == "0";
    ParseIntOfDecimal(n, "");
    assert NatToString(n) + "" == NatToString(n);
  }

  /** With the duration variables unset or empty, the configuration holds the
      defaults: a 3600-second lifetime and a 300-second renewal period. */
  lemma UnsetDurationsDefault(env: Env)
    ensures Unset(env.expiresIn) ==> LoadJwtConfig(env).expiresIn == 3600
    ensures Unset(env.renewalDuration) ==> LoadJwtConfig(env).renewalDuration == 300
  {
    var c := LoadJwtConfig(env);
    if Unset(env.expiresIn) {
      UnsetFindsNoNumber(env.expiresIn);
    }
    if Unset(env.renewalDuration) {
      UnsetFindsNoNumber(env.renewalDuration);
    }
  }

  /** An unset or empty variable parses to no number. */
  lemma UnsetFindsNoNumber(v: Option<string>)
    requires Unset(v)
    ensures ParseIntOf(v) == NaN
  {
    ParseIntFindsNothing("");
    if v.Some? {
      assert v.value == "";
    }
  }

  // ---------------------------------------------------------------------
  // Errors
  // ---------------------------------------------------------------------

  /** What the module throws. `LibraryError` is whatever the token library
      throws, passed on unchanged. */
  datatype JwtError =
    | SecretNotFound
    | InvalidTokenFormat
    | UnexpectedKeyId(kid: Option<string>, expected: string)
    | CannotExtractVideoName(path: string)
    | LibraryError(message: string)

  /** The message text of each error: the module's own errors always say
      something and name the offending path or key ids, and a library error
      keeps the library's message unchanged. */
  function Message(e: JwtError): (m: string)
    ensures e.LibraryError? ==> m == e.message
    ensures !e.LibraryError? ==> m != ""
    ensures e.CannotExtractVideoName? ==> |e.path| <= |m| && m[|m| - |e.path|..] == e.path
    ensures e.UnexpectedKeyId? ==>
      |e.expected| + 1 <= |m| && m[|m| - |e.expected| - 1 .. |m| - 1] == e.expected && m[|m| - 1] == ')'
    ensures e.UnexpectedKeyId? ==>
      var k := e.kid.GetOr("undefined");
      37 + |k| <= |m| && m[..37] == "Token signed with unexpected key ID: " && m[37..37 + |k|] == k
  {
    match e
    case SecretNotFound => "JWT_PRIMARY_SECRET not found in environment"
    case InvalidTokenFormat => "Invalid token format"
    case UnexpectedKeyId(kid, expected) =>
      "Token signed with unexpected key ID: " + kid.GetOr("undefined") + " (expected: " + expected + ")"
    case CannotExtractVideoName(path) => "Cannot extract video name from path: " + path
    case LibraryError(m) => m
  }

  // ---------------------------------------------------------------------
  // Token issuance
  // ---------------------------------------------------------------------

  /** The `options` argument of `generateManifestToken`; `None` is an absent
      property. */
  datatype TokenOptions = TokenOptions(
    issuer: Option<string>,
    audience: Option<string>,
    expiresIn: Option<JsNumber>,
    renewalDuration: Option<JsNumber>,
    keyId: Option<string>,
    hostname: Option<string>)

  /** The hostname pattern used when no hostname is given: any authority. */
  const AnyHostname: string := "[^/]*"

  /** `options.x || fallback` for a numeric option. */
  function OptionNumberOr(x: Option<JsNumber>, fallback: int): int {
    match x
    case None => fallback
    case Some(v) => NumberOr(v, fallback)
  }

  /** The claim set of a manifest token. */
  datatype Claims = Claims(
    iss: string,
    sub: string,
    aud: string,
    iat: int,
    exp: int,
    nbf: int,
    cdniv: int,     // CDNI claim set version
    cdniuc: string, // CDNI URI container: the paths the token authorises
    cdnistt: int,   // CDNI signed token transport
    cdniets: int)   // CDNI expiration time setting, for renewal

  /** The protected header fields the program sets; the library adds `alg`. */
  datatype Header = Header(kid: string, typ: string)

  /** Everything handed to `jwt.sign`: payload, secret, algorithm, header, and
      the `noTimestamp` flag (the program sets `iat` itself). */
  datatype SignRequest = SignRequest(
    payload: Claims, secret: string, algorithm: string, header: Header, noTimestamp: bool)

  /** The path prefix a token for `videoName` is scoped to. */
  function ConstraintPrefix(videoName: string): string {
    "/videos/" + videoName + "/"
  }

  /** The file extensions the URI container admits, in the order written. */
  const SignedExtensions: seq<string> := ["ts", "m3u8", "mpd", "m4s"]

  /** The tail of the URI container pattern: any file with a signed extension. */
  const ConstraintSuffix: string := ".*\\.(ts|m3u8|mpd|m4s)"

  /** The URI container claim, `regex:https?://<host>/videos/<name>/.*\.(ts|m3u8|mpd|m4s)`,
      kept as a string: `videoName` is inserted without escaping. */
  function UriConstraint(hostname: string, videoName: string): (c: string)
    ensures |c| >= 15 + |hostname| + |ConstraintSuffix| && c[..15] == "regex:https?://"
    ensures c[15..15 + |hostname|] == hostname
    ensures c[|c| - |ConstraintSuffix|..] == ConstraintSuffix
  {
    "regex:https?://" + hostname + ConstraintPrefix(videoName) + ConstraintSuffix
  }

  /** The pattern's alternatives are exactly the signed extensions. */
  lemma ConstraintSuffixListsExtensions()
    ensures ConstraintSuffix == ".*\\.(" + Join(SignedExtensions, '|') + ")"
  {
  }

  /** The claims `generateManifestToken` builds at second `now`. */
  function ManifestClaims(config: JwtConfig, videoName: string, options: TokenOptions, now: int): (c: Claims)
    ensures c.iat == now && c.nbf == now
    ensures c.exp - c.iat == OptionNumberOr(options.expiresIn, config.expiresIn)
    ensures c.exp > c.iat <==
      ((options.expiresIn.None? || !Truthy(options.expiresIn.value)) && config.expiresIn > 0)
    ensures c.cdniv == 1 && c.cdnistt == 1
  {
    Claims(
      iss := StringOr(options.issuer, config.issuer),
      sub := "manifest:" + videoName,
      aud := StringOr(options.audience, config.audience),
      iat := now,
      exp := now + OptionNumberOr(options.expiresIn, config.expiresIn),
      nbf := now,
      cdniv := 1,
      cdniuc := UriConstraint(StringOr(options.hostname, AnyHostname), videoName),
      cdnistt := 1,
      cdniets := OptionNumberOr(options.renewalDuration, config.renewalDuration))
  }

  /** The first half of `generateManifestToken`: resolve options against the
      configuration, refuse without a secret, and build the request handed to
      `jwt.sign`. The clock is read only after the secret check. */
  function ManifestSignRequest(env: Env, videoName: string, options: TokenOptions, nowMs: int)
    : (r: Result<SignRequest, JwtError>)
    ensures r.Failure? <==> Unset(env.primarySecret)
    ensures r.Failure? ==> r.error == SecretNotFound
    ensures r.Success? ==>
      && r.value.secret == env.primarySecret.value
      && r.value.algorithm == LoadJwtConfig(env).algorithm
      && r.value.noTimestamp
      && r.value.header.typ == "JWT"
  {
    var config := LoadJwtConfig(env);
    var keyId := StringOr(options.keyId, config.primaryKid);
    if Unset(env.primarySecret) then Failure(SecretNotFound)
    else
      var now := nowMs / 1000;
      Success(SignRequest(
        ManifestClaims(config, videoName, options, now),
        env.primarySecret.value,
        config.algorithm,
        Header(keyId, "JWT"),
        true))
  }

  /** The claims and header of an issued token, stated field by field: each
      option wins when truthy and otherwise the configuration applies; the time
      claims are the current second, with `exp - iat` the lifetime; `sub` and
      `cdniuc` name the video. */
  lemma ManifestClaimsContent(env: Env, videoName: string, options: TokenOptions, nowMs: int)
    requires ManifestSignRequest(env, videoName, options, nowMs).Success?
    ensures var req := ManifestSignRequest(env, videoName, options, nowMs).value;
      var c := req.payload;
      var config := LoadJwtConfig(env);
      && c.iat * 1000 <= nowMs < c.iat * 1000 + 1000
      && c.nbf == c.iat
      && c.sub == "manifest:" + videoName
      && c.iss == (if Unset(options.issuer) then config.issuer else options.issuer.value)
      && c.aud == (if Unset(options.audience) then config.audience else options.audience.value)
      && req.header.kid == (if Unset(options.keyId) then config.primaryKid else options.keyId.value)
      && c.exp - c.iat == (if options.expiresIn.Some? && Truthy(options.expiresIn.value)
                           then options.expiresIn.value.value else config.expiresIn)
      && c.cdniets == (if options.renewalDuration.Some? && Truthy(options.renewalDuration.value)
                       then options.renewalDuration.value.value else config.renewalDuration)
      && c.cdniuc == UriConstraint(if Unset(options.hostname) then AnyHostname else options.hostname.value, videoName)
  {
  }

  /** Reads the video name back out of a `sub` claim. */
  function SubjectVideoName(sub: string): Option<string> {
    if |sub| >= 9 && sub[..9] == "manifest:" then Some(sub[9..]) else None
  }

  /** The subject of an issued token names exactly the video it was issued for. */
  lemma SubjectRoundTrip(env: Env, videoName: string, options: TokenOptions, nowMs: int)
    requires ManifestSignRequest(env, videoName, options, nowMs).Success?
    ensures SubjectVideoName(ManifestSignRequest(env, videoName, options, nowMs).value.payload.sub)
            == Some(videoName)
  {
    var sub := "manifest:" + videoName;
    assert sub[..9] == "manifest:" && sub[9..] == videoName;
  }

  /** `jwt.sign`, as a parameter: the token text, or the message it throws. */
  type Signer = SignRequest -> Result<string, string>

  /** `generateManifestToken(videoName, options)`: a signed token, or the error
      thrown. Without a secret the signer is never consulted. */
  function GenerateManifestToken(sign: Signer, env: Env, videoName: string, options: TokenOptions, nowMs: int)
    : (r: Result<string, JwtError>)
    ensures Unset(env.primarySecret) ==> r == Failure(SecretNotFound)
    ensures !Unset(env.primarySecret) ==>
      var req := ManifestSignRequest(env, videoName, options, nowMs).value;
      r == (if sign(req).Success? then Success(sign(req).value) else Failure(LibraryError(sign(req).error)))
  {
    match ManifestSignRequest(env, videoName, options, nowMs)
    case Failure(e) => Failure(e)
    case Success(req) =>
      match sign(req)
      case Success(token) => Success(token)
      case Failure(m) => Failure(LibraryError(m))
  }

  // ---------------------------------------------------------------------
  // Name extraction from a path
  // ---------------------------------------------------------------------

  /** The video name `generateTokenForPath` extracts: among the non-empty
      segments, the one after the first `videos` when that has a successor,
      else the second-to-last; nothing with fewer than two segments. */
  function ServerVideoName(path: string): (name: Option<string>)
    ensures name.Some? <==> |Segments(path)| >= 2
    ensures name.Some? ==> name.value != "" && name.value in Segments(path)
    ensures var parts := Segments(path);
      forall i :: 0 <= i < |parts| - 1 && parts[i] == "videos" && "videos" !in parts[..i] ==>
        name == Some(parts[i + 1])
    ensures var parts := Segments(path);
      |parts| >= 2 && "videos" !in parts[..|parts| - 1] ==> name == Some(parts[|parts| - 2])
  {
    var parts := Segments(path);
    if |parts| >= 2 then
      var videosIndex := IndexOf(parts, "videos");
      if videosIndex >= 0 && |parts| > videosIndex + 1 then Some(parts[videosIndex + 1])
      else Some(parts[|parts| - 2])
    else None
  }

  /** The first half of `generateTokenForPath`: the path is parsed before
      anything else, so an unparsable path fails even without a secret. */
  function PathSignRequest(env: Env, videoPath: string, options: TokenOptions, nowMs: int)
    : (r: Result<SignRequest, JwtError>)
    ensures ServerVideoName(videoPath).None? ==> r == Failure(CannotExtractVideoName(videoPath))
    ensures ServerVideoName(videoPath).Some? ==>
      r == ManifestSignRequest(env, ServerVideoName(videoPath).value, options, nowMs)
  {
    match ServerVideoName(videoPath)
    case None => Failure(CannotExtractVideoName(videoPath))
    case Some(videoName) => ManifestSignRequest(env, videoName, options, nowMs)
  }

  /** `generateTokenForPath(videoPath, options)`. */
  function GenerateTokenForPath(sign: Signer, env: Env, videoPath: string, options: TokenOptions, nowMs: int)
    : (r: Result<string, JwtError>)
    ensures ServerVideoName(videoPath).None? ==> r == Failure(CannotExtractVideoName(videoPath))
    ensures ServerVideoName(videoPath).Some? ==>
      r == GenerateManifestToken(sign, env, ServerVideoName(videoPath).value, options, nowMs)
  {
    match ServerVideoName(videoPath)
    case None => Failure(CannotExtractVideoName(videoPath))
    case Some(videoName) => GenerateManifestToken(sign, env, videoName, options, nowMs)
  }

  // ---------------------------------------------------------------------
  // Verification pre-checks
  // ---------------------------------------------------------------------

  /** The part of `jwt.decode(token, {complete: true})` the checks read. */
  datatype DecodedToken = DecodedToken(headerKid: Option<string>)

  /** `jwt.decode`, as a parameter: `None` when the token cannot be decoded. */
  type Decoder = string -> Option<DecodedToken>

  /** Everything handed to `jwt.verify`. */
  datatype VerifyRequest = VerifyRequest(
    token: string, secret: string, algorithms: seq<string>, issuer: string, audience: string)

  /** `keyId || decoded.header.kid`. */
  function EffectiveKid(keyId: Option<string>, decoded: DecodedToken): (kid: Option<string>)
    ensures kid == keyId || kid == decoded.headerKid
    ensures !Unset(keyId) ==> kid == keyId
    ensures Unset(keyId) ==> kid == decoded.headerKid
  {
    if Unset(keyId) then decoded.headerKid else keyId
  }

  /** The pre-checks of `verifyToken`, in order: the token must decode, a
      secret must be configured, and the key id (the explicit argument, else
      the header's) must be the configured primary one. Only then is the
      library verifier called, with the configured algorithm alone, the
      expected issuer and the configured audience. */
  function VerifyRequestFor(decode: Decoder, env: Env, token: string, issuer: Option<string>, keyId: Option<string>)
    : (r: Result<VerifyRequest, JwtError>)
    ensures decode(token).None? ==> r == Failure(InvalidTokenFormat)
    ensures decode(token).Some? && Unset(env.primarySecret) ==> r == Failure(SecretNotFound)
    ensures decode(token).Some? && !Unset(env.primarySecret) ==>
      var kid := EffectiveKid(keyId, decode(token).value);
      kid != Some(LoadJwtConfig(env).primaryKid) ==>
        r == Failure(UnexpectedKeyId(kid, LoadJwtConfig(env).primaryKid))
    ensures r.Success? <==>
      && decode(token).Some?
      && !Unset(env.primarySecret)
      && EffectiveKid(keyId, decode(token).value) == Some(LoadJwtConfig(env).primaryKid)
    ensures r.Success? ==>
      && r.value.token == token
      && r.value.secret == env.primarySecret.value
      && r.value.algorithms == [LoadJwtConfig(env).algorithm]
      && r.value.issuer == (if Unset(issuer) then LoadJwtConfig(env).issuer else issuer.value)
      && r.value.audience == LoadJwtConfig(env).audience
  {
    var config := LoadJwtConfig(env);
    match decode(token)
    case None => Failure(InvalidTokenFormat)
    case Some(decoded) =>
      var kid := EffectiveKid(keyId, decoded);
      var iss := StringOr(issuer, config.issuer);
      if Unset(env.primarySecret) then Failure(SecretNotFound)
      else if kid != Some(config.primaryKid) then Failure(UnexpectedKeyId(kid, config.primaryKid))
      else Success(VerifyRequest(token, env.primarySecret.value, [config.algorithm], iss, config.audience))
  }

  /** `jwt.verify`, as a parameter: the payload, or the message it throws. */
  type Verifier<P> = VerifyRequest -> Result<P, string>

  /** `verifyToken(token, issuer, keyId)`: the pre-checks, then the library. */
  function VerifyToken<P>(verify: Verifier<P>, decode: Decoder, env: Env, token: string,
                          issuer: Option<string>, keyId: Option<string>): (r: Result<P, JwtError>)
    ensures VerifyRequestFor(decode, env, token, issuer, keyId).Failure? ==>
      r == Failure(VerifyRequestFor(decode, env, token, issuer, keyId).error)
    ensures VerifyRequestFor(decode, env, token, issuer, keyId).Success? ==>
      var v := verify(VerifyRequestFor(decode, env, token, issuer, keyId).value);
      r == (if v.Success? then Success(v.value) else Failure(LibraryError(v.error)))
  {
    match VerifyRequestFor(decode, env, token, issuer, keyId)
    case Failure(e) => Failure(e)
    case Success(req) =>
      match verify(req)
      case Success(payload) => Success(payload)
      case Failure(m) => Failure(LibraryError(m))
  }

  /** A rejected pre-check never reaches the library: the outcome is the same
      whatever verifier is supplied. */
  lemma RejectionIgnoresVerifier<P>(v1: Verifier<P>, v2: Verifier<P>, decode: Decoder, env: Env,
                                    token: string, issuer: Option<string>, keyId: Option<string>)
    requires VerifyRequestFor(decode, env, token, issuer, keyId).Failure?
    ensures VerifyToken(v1, decode, env, token, issuer, keyId) == VerifyToken(v2, decode, env, token, issuer, keyId)
    ensures !VerifyToken(v1, decode, env, token, issuer, keyId).error.LibraryError?
  {
  }

  /** A token issued with the configured key id, whose header decodes to that
      key id, passes every pre-check, and the library is asked to check it
      against the algorithm it was signed with and, when the issue options
      named no issuer or audience, the issuer and audience it carries. */
  lemma IssuedTokenPassesPrechecks(env: Env, videoName: string, options: TokenOptions, nowMs: int,
                                   decode: Decoder, token: string)
    requires ManifestSignRequest(env, videoName, options, nowMs).Success?
    requires Unset(options.keyId)
    requires decode(token) == Some(DecodedToken(Some(ManifestSignRequest(env, videoName, options, nowMs).value.header.kid)))
    ensures var req := ManifestSignRequest(env, videoName, options, nowMs).value;
      var r := VerifyRequestFor(decode, env, token, None, None);
      && r.Success?
      && r.value.secret == req.secret
      && r.value.algorithms == [req.algorithm]
      && (Unset(options.issuer) ==> r.value.issuer == req.payload.iss)
      && (Unset(options.audience) ==> r.value.audience == req.payload.aud)
  {
  }

  /** A token whose header names another key is refused before the library is
      consulted, with that key id in the error. */
  lemma ForeignKeyRejected(decode: Decoder, env: Env, token: string, kid: string)
    requires decode(token) == Some(DecodedToken(Some(kid)))
    requires !Unset(env.primarySecret)
    requires kid != LoadJwtConfig(env).primaryKid
    ensures VerifyRequestFor(decode, env, token, None, None)
            == Failure(UnexpectedKeyId(Some(kid), LoadJwtConfig(env).primaryKid))
  {
  }

  // ---------------------------------------------------------------------
  // base64url key normalisation
  // ---------------------------------------------------------------------

  /** The string stage of `base64urlToBuffer`: `-` becomes `+`, `_` becomes
      `/`, and `=` padding is added up to a multiple of four characters. */
  function Base64UrlToBase64(s: string): (r: string)
    ensures '-' !in r && '_' !in r
    ensures |r| % 4 == 0
    ensures |s| <= |r| <= |s| + 3
    ensures forall i :: |s| <= i < |r| ==> r[i] == '='
    ensures forall i :: 0 <= i < |s| ==>
      r[i] == (if s[i] == '-' then '+' else if s[i] == '_' then '/' else s[i])
  {
    var base64 := ReplaceAll(ReplaceAll(s, '-', '+'), '_', '/');
    var padding := Repeat('=', (4 - |base64| % 4) % 4);
    base64 + padding
  }

  /** The inverse mapping, from the standard alphabet back to base64url. */
  function Base64ToBase64Url(s: string): string {
    ReplaceAll(ReplaceAll(s, '+', '-'), '/', '_')
  }

  /** Without padding, the normalised text maps back to the base64url input
      whenever that input uses only the base64url alphabet's special characters. */
  lemma Base64UrlRoundTrip(s: string)
    requires '+' !in s && '/' !in s
    ensures Base64ToBase64Url(Base64UrlToBase64(s)[..|s|]) == s
  {
    var r := Base64UrlToBase64(s)[..|s|];
    var back := Base64ToBase64Url(r);
    forall i | 0 <= i < |s|
      ensures back[i] == s[i]
    {
      assert s[i] != '+' && s[i] != '/';
    }
  }
}

=== FILE: pipeline_agreement.dfy ===
/**
 * How the three parts of the pipeline fit together: the packager publishes
 * `videos/<title>/index.mpd`, the browser reads the title back out of that
 * path, the server reads the same title out of it when asked for a token, and
 * the token it issues is scoped to `/videos/<title>/` and to the file types
 * the packager writes.
 */
module PipelineAgreement {
  import opened Wrappers
  import opened JsStrings
  import opened JsNumbers
  import JwtSigning
  import FfmpegUtils
  import ClientScript

  // ---------------------------------------------------------------------
  // The two video-name parsers
  // ---------------------------------------------------------------------

  /** The client's `extractVideoName` and the server's name extraction read
      the same name from every path with at least two segments; on shorter
      paths the server refuses and the client falls back to `unknown`. */
  lemma ClientServerAgree(path: string)
    ensures |Segments(path)| >= 2 ==>
      JwtSigning.ServerVideoName(path) == Some(ClientScript.ExtractVideoName(path))
    ensures |Segments(path)| < 2 ==>
      JwtSigning.ServerVideoName(path).None? && ClientScript.ExtractVideoName(path) == ClientScript.UnknownVideo
  {
    var parts := Segments(path);
    if |parts| >= 2 {
      var i := IndexOf(parts, "videos");
      if 0 <= i < |parts| - 1 {
        assert parts[i] == "videos" && "videos" !in parts[..i];
      } else {
        assert "videos" !in parts[..|parts| - 1] by {
          if i == |parts| - 1 {
            assert parts[..i] == parts[..|parts| - 1];
          }
        }
      }
    }
  }

  // ---------------------------------------------------------------------
  // Published paths carry the title
  // ---------------------------------------------------------------------

  /** The segments of a package path: `videos`, the title, the file. */
  lemma PackagePathSegments(title: string, file: string)
    requires title != "" && '/' !in title
    requires file != "" && '/' !in file
    ensures Segments(FfmpegUtils.PackagePath(title, file)) == ["videos", title, file]
  {
    assert FfmpegUtils.PackagePath(title, file) == "videos" + "/" + (title + "/" + file);
    SegmentsAround("videos", title + "/" + file);
    SegmentsAround(title, file);
    SegmentsOfName("videos");
    SegmentsOfName(title);
    SegmentsOfName(file);
  }

  /** A package file published below the CDN URL (or relative, without one). */
  function PublishedFile(cdnUrl: Option<string>, title: string, file: string): string {
    if Unset(cdnUrl) then FfmpegUtils.PackagePath(title, file)
    else cdnUrl.value + "/" + FfmpegUtils.PackagePath(title, file)
  }

  /** Both parsers read the title back out of a published file path, as long
      as the title is one segment and the CDN URL has no `videos` segment. */
  lemma {:induction false} PublishedFileNamesTitle(cdnUrl: Option<string>, title: string, file: string)
    requires title != "" && '/' !in title
    requires file != "" && '/' !in file
    requires !Unset(cdnUrl) ==> "videos" !in Segments(cdnUrl.value)
    ensures ClientScript.ExtractVideoName(PublishedFile(cdnUrl, title, file)) == title
    ensures JwtSigning.ServerVideoName(PublishedFile(cdnUrl, title, file)) == Some(title)
  {
    var path := PublishedFile(cdnUrl, title, file);
    var prefix: seq<string> := if Unset(cdnUrl) then [] else Segments(cdnUrl.value);
    PackagePathSegments(title, file);
    if !Unset(cdnUrl) {
      SegmentsAround(cdnUrl.value, FfmpegUtils.PackagePath(title, file));
    } else {
      assert prefix + ["videos", title, file] == ["videos", title, file];
    }
    var parts := prefix + ["videos", title, file];
    assert Segments(path) == parts;
    assert parts[|prefix|] == "videos" && parts[|prefix| + 1] == title;
    assert parts[..|prefix|] == prefix;
  }

  /** The precondition above is needed: when the CDN URL's only `videos`
      segment is its last one, both parsers stop at that segment and read
      `videos` as the video name, whatever the title, so the server would scope the
      token to `/videos/videos/`. */
  lemma {:induction false} CdnVideosSegmentMisreads(cdn: string, title: string)
    requires title != "" && '/' !in title
    requires |Segments(cdn)| >= 1 && Segments(cdn)[|Segments(cdn)| - 1] == "videos"
    requires "videos" !in Segments(cdn)[..|Segments(cdn)| - 1]
    ensures var path := FfmpegUtils.PublishedPathsFor(Some(cdn), title).videoPath;
      && ClientScript.ExtractVideoName(path) == "videos"
      && JwtSigning.ServerVideoName(path) == Some("videos")
  {
    var prefix := Segments(cdn);
    var path := PublishedFile(Some(cdn), title, FfmpegUtils.ManifestFileName);
    PackagePathSegments(title, FfmpegUtils.ManifestFileName);
    SegmentsAround(cdn, FfmpegUtils.PackagePath(title, FfmpegUtils.ManifestFileName));
    var parts := prefix + ["videos", title, FfmpegUtils.ManifestFileName];
    assert Segments(path) == parts;
    var i := |prefix| - 1;
    assert parts[i] == "videos" && parts[i + 1] == "videos";
    assert parts[..i] == prefix[..i];
  }

  /** The catalog's manifest and thumbnail paths both name the title for the
      client and for the server. */
  lemma PublishedPathsNameTitle(cdnUrl: Option<string>, title: string)
    requires title != "" && '/' !in title
    requires !Unset(cdnUrl) ==> "videos" !in Segments(cdnUrl.value)
    ensures var paths := FfmpegUtils.PublishedPathsFor(cdnUrl, title);
      && ClientScript.ExtractVideoName(paths.videoPath) == title
      && JwtSigning.ServerVideoName(paths.videoPath) == Some(title)
      && ClientScript.ExtractVideoName(paths.thumbPath) == title
      && JwtSigning.ServerVideoName(paths.thumbPath) == Some(title)
  {
    PublishedFileNamesTitle(cdnUrl, title, FfmpegUtils.ManifestFileName);
    PublishedFileNamesTitle(cdnUrl, title, FfmpegUtils.ThumbnailFileName);
  }

  // ---------------------------------------------------------------------
  // The token's scope covers the package
  // ---------------------------------------------------------------------

  /** A package file lies directly below the token's constraint prefix. */
  lemma PackagePathUnderPrefix(root: string, title: string, file: string)
    ensures "/" + FfmpegUtils.PackagePath(title, file) == JwtSigning.ConstraintPrefix(title) + file
    ensures root + "/" + FfmpegUtils.PackagePath(title, file) == root + JwtSigning.ConstraintPrefix(title) + file
  {
    assert "/" + FfmpegUtils.PackagePath(title, file) == "/videos/" + title + "/" + file;
  }

  /** The published paths lie directly below the token's constraint prefix:
      with a CDN URL, `<cdn>/videos/<title>/<file>`; without one, the relative
      path is the prefix without its leading `/`. */
  lemma PublishedPathsUnderConstraint(cdnUrl: Option<string>, title: string)
    ensures var paths := FfmpegUtils.PublishedPathsFor(cdnUrl, title);
      var root := StringOr(cdnUrl, "");
      var prefix := JwtSigning.ConstraintPrefix(title);
      && (root != "" ==> paths.videoPath == root + prefix + FfmpegUtils.ManifestFileName)
      && (root != "" ==> paths.thumbPath == root + prefix + FfmpegUtils.ThumbnailFileName)
      && (root == "" ==> "/" + paths.videoPath == prefix + FfmpegUtils.ManifestFileName)
      && (root == "" ==> "/" + paths.thumbPath == prefix + FfmpegUtils.ThumbnailFileName)
  {
    var root := StringOr(cdnUrl, "");
    PackagePathUnderPrefix(root, title, FfmpegUtils.ManifestFileName);
    PackagePathUnderPrefix(root, title, FfmpegUtils.ThumbnailFileName);
  }

  /** The issued URI constraint names the title's directory: the prefix
      appears in the claim right after the scheme and host. */
  lemma ConstraintNamesDirectory(hostname: string, title: string)
    ensures var c := JwtSigning.UriConstraint(hostname, title);
      var start := |"regex:https?://" + hostname|;
      var prefix := JwtSigning.ConstraintPrefix(title);
      start + |prefix| <= |c| && c[start..start + |prefix|] == prefix
  {
    var head := "regex:https?://" + hostname;
    var prefix := JwtSigning.ConstraintPrefix(title);
    var c := JwtSigning.UriConstraint(hostname, title);
    assert c == head + prefix + JwtSigning.ConstraintSuffix;
    assert c[|head|..|head| + |prefix|] == prefix;
  }

  /** The text after the last `.` of a file name. */
  function Extension(name: string): (ext: string)
    ensures '.' !in ext
  {
    var parts := Split(name, '.');
    SplitPiecesExcludeSeparator(name, '.');
    parts[|parts| - 1]
  }

  /** A name `<stem>.<ext>` with `ext` free of `.` has extension `ext`. */
  lemma ExtensionOf(stem: string, ext: string)
    requires '.' !in ext
    ensures Extension(stem + "." + ext) == ext
  {
    assert stem + "." + ext == stem + ['.'] + ext;
    SplitAround(stem, '.', ext);
    SplitWithoutSeparator(ext, '.');
  }

  /** The manifest has a signed extension. */
  lemma ManifestSigned()
    ensures Extension(FfmpegUtils.ManifestFileName) in JwtSigning.SignedExtensions
  {
    assert FfmpegUtils.ManifestFileName == "index" + "." + "mpd";
    ExtensionOf("index", "mpd");
  }

  /** The init and media segments have a signed extension for every
      representation and segment number the encoder prints. */
  lemma {:induction false} SegmentFilesSigned(representation: nat, number: nat)
    ensures Extension(FfmpegUtils.FillTemplate(FfmpegUtils.InitSegmentTemplate,
                                                NatToString(representation), NatToString(number)))
            in JwtSigning.SignedExtensions
    ensures Extension(FfmpegUtils.FillTemplate(FfmpegUtils.MediaSegmentTemplate,
                                                NatToString(representation), NatToString(number)))
            in JwtSigning.SignedExtensions
  {
    var rep := NatToString(representation);
    var n := NatToString(number);
    FfmpegUtils.SegmentFileNames(rep, n);
    assert JwtSigning.SignedExtensions[3] == "m4s";
    assert ".m4s" == "." + "m4s";
    assert "init-" + rep + ".m4s" == ("init-" + rep) + "." + "m4s";
    ExtensionOf("init-" + rep, "m4s");
    assert "segment-" + rep + "-" + n + ".m4s" == ("segment-" + rep + "-" + n) + "." + "m4s";
    ExtensionOf("segment-" + rep + "-" + n, "m4s");
  }

  /** The thumbnail lies outside the token's scope. */
  lemma ThumbnailUnsigned()
    ensures Extension(FfmpegUtils.ThumbnailFileName) !in JwtSigning.SignedExtensions
  {
    assert FfmpegUtils.ThumbnailFileName == "thumbnail" + "." + "webp";
    ExtensionOf("thumbnail", "webp");
  }

  // ---------------------------------------------------------------------
  // End to end
  // ---------------------------------------------------------------------

  /** Asking the server for a token for a published manifest path is asking
      for a token for the title: the same signing request, whose subject
      reads back as the title and whose URI constraint names the title's
      directory. */
  lemma TokenForPublishedManifest(env: JwtSigning.Env, cdnUrl: Option<string>, title: string,
                                  options: JwtSigning.TokenOptions, nowMs: int)
    requires title != "" && '/' !in title
    requires !Unset(cdnUrl) ==> "videos" !in Segments(cdnUrl.value)
    ensures var path := FfmpegUtils.PublishedPathsFor(cdnUrl, title).videoPath;
      JwtSigning.PathSignRequest(env, path, options, nowMs) == JwtSigning.ManifestSignRequest(env, title, options, nowMs)
    ensures var r := JwtSigning.ManifestSignRequest(env, title, options, nowMs);
      r.Success? ==>
        && JwtSigning.SubjectVideoName(r.value.payload.sub) == Some(title)
        && r.value.payload.cdniuc == JwtSigning.UriConstraint(StringOr(options.hostname, JwtSigning.AnyHostname), title)
  {
    PublishedPathsNameTitle(cdnUrl, title);
    var r := JwtSigning.ManifestSignRequest(env, title, options, nowMs);
    if r.Success? {
      JwtSigning.SubjectRoundTrip(env, title, options, nowMs);
      JwtSigning.ManifestClaimsContent(env, title, options, nowMs);
    }
  }
}

=== FILE: wrappers.dfy ===
/** Option and Result: absent values and thrown errors, as values. */
module Wrappers {

  /** A value that may be missing (`undefined` in the original program). */
  datatype Option<+T> = None | Some(value: T) {

    /** The wrapped value, or `default` when there is none. */
    function GetOr(default: T): T {
      match this
      case Some(v) => v
      case None => default
    }
  }

  /** The outcome of an operation that either returns a value or throws. */
  datatype Result<+R, +E> = Success(value: R) | Failure(error: E)
}
